=== FILE: README.md ===
# Quorum key-value prototype: a Dafny model of its decision logic

The system is a small key-value service. It has three parts:

- **Nodes** each keep a replica store and coordinate quorum reads and writes over every live "ready" node.
- A **load balancer** picks a per-client shuffle shard from a cached membership list and forwards each request to one member of that shard.
- **Clients** retry with capped, jittered exponential backoff.

This project models the sequential decision logic of those three parts as pure Dafny functions and methods, and proves the properties that the code promises.

The modules:

- `Store`: one node's table and its last-writer-wins put, keyed by timestamp and made idempotent by the request id. Also the matching get.
- `Registry`, `Membership`: the registry's `node:*` hashes. Also the node's membership list `sorted(set(ready addresses))`, with Python's string order written out.
- `Quorum`: W and R computed from the number of live nodes, and the intersection of quorums.
- `Sampling`: a deterministic stand-in for `random.seed(hash(client_id)); random.sample(...)`.
- `Overload`: the in-flight counter of `with_overload_protection`.
- `Coordinator`: the write and read fan-out of `coordinator_set` / `coordinator_get` over a cluster. The cluster maps each address to a store. Each remote link answers, is unreachable, or times out.
- `Balancer`: the one-second membership cache, `shuffle_shard`, and the dispatch of `proxy_set` / `proxy_get`.
- `Client`: `backoff`, and the five-attempt loop of `set_value` / `get_value`.
- `LoadTest`: `send_with_retries`, `Stats.record`, the overload check after each call, `Progress.increment`, and the loop of `client_task`.

Time is in integer milliseconds. The client's sleep is in microseconds, so that the interval [0.5 d, 1.5 d) is exact. Random draws are parameters: `random.random()` is a draw in thousandths, and `random.uniform(0, jitter)` is a draw in [0, jitter]. The load balancer's `random.choice` is not a free draw. It uses the generator that `shuffle_shard` has just seeded with the client id, in the state the shard's own draws left it. This holds when the balancer serves one request at a time, which is what the model assumes (see "## Left out").

What the code does, and the model with it:

- Writes are ordered by a timestamp plus a request id. There is no per-key version counter.
- Membership has only the states "joining" and "ready". It tracks no health.
- Reads do not repair stale replicas.
- No quorum configuration is rejected at startup. W and R are recomputed from the live node count on every request.
- The load balancer forwards each request to a single node. It does not fan out.
- `coordinator_get` computes R but never uses it. It asks every chosen node and answers with the first row that has the largest timestamp.

## Model

| member | source | states |
|---|---|---|
| Store.Put | node/app.py:63-81 | Only the written key can change, and it is present afterwards. The write is acknowledged exactly when the row then carries its request id. A refused write changes nothing. The stored timestamp never decreases. |
| Store.PutAbsentKey | node/app.py:75-81 | A write to an absent key stores exactly (value, ts, request id) and returns True. |
| Store.PutReplay | node/app.py:68-71 | A write whose request id equals the stored one returns True and leaves the store unchanged. |
| Store.PutStale | node/app.py:72-74 | A different request with a strictly smaller timestamp returns False and changes nothing. |
| Store.PutNewer | node/app.py:72-81 | A different request with an equal or larger timestamp overwrites the row and returns True. |
| Store.PutIdempotent | node/app.py:63-81 | Applying the same write twice gives the same store and answer as applying it once. |
| Store.Get | node/app.py:83-91 | Returns the stored row for a present key and None for an absent one. |
| Store.GetAfterPut | node/app.py:63-91 | After a put, the key is present. It holds the write's request id exactly when the put was acknowledged. |
| Store.PutsNeverLowerTs | node/app.py:72-81 | Over any sequence of puts, no key disappears and no key's stored timestamp decreases. |
| Store.ReplaysLeaveStoreUnchanged | node/app.py:68-71 | Once a key holds a request id, every write with that key and request id is acknowledged and is a no-op, whatever its timestamp. |
| Store.AcceptedThenReplays | node/app.py:63-81 | After one acknowledged attempt of a request, later attempts of the same request leave the store as it is. |
| Store.PassesCheckIsPut | node/app.py:65-79 | The decision taken after the SELECT is Put's: a write that passes replaces the row and is acknowledged, and one that does not leaves the store unchanged. |
| Store.InterleavedPuts | node/app.py:63-81 | Two calls whose SELECTs both read the same snapshot before either REPLACE. On different keys the outcome is that of running them in turn. The later REPLACE to pass its check wins, whatever row it overwrites. |
| Store.InterleavedPutsLowerTs | node/app.py:65-79 | Take two different requests for one key, the newer first, both passing their checks on the same row. Under the interleaving the stored ts ends below that of the newer write, which was already acknowledged. Run in turn, the older write is refused instead. |
| Store.InterleavedPutsExample | node/app.py:63-81 | On an empty table, writes with ts 10 and ts 5 interleaved leave ts 5. Run in turn they leave ts 10. |
| Registry.ReadyAddrs | load_balancer/load_balancer.py:22-27 | Keeps exactly the addresses of the entries whose state is "ready", duplicates included. |
| Registry.ReadyAddrsAppend | load_balancer/load_balancer.py:24-27 | Scanning entries in two parts gives the full scan, so discovery order is kept. |
| Membership.Below | node/app.py:156 | Python's `<` on strings. A proper prefix is smaller. No string is smaller than one of its own prefixes. At the first differing position, the smaller character makes the smaller string. |
| Membership.BelowIrreflexive | node/app.py:156 | No string is below itself. |
| Membership.BelowAsymmetric | node/app.py:156 | If a is below b, then b is not below a. |
| Membership.BelowTransitive | node/app.py:156 | The order is transitive. |
| Membership.BelowTotal | node/app.py:156 | Any two different strings are ordered one way or the other, so `sorted` has a unique answer. |
| Membership.Insert | node/app.py:156 | Inserting into a strictly increasing list keeps it strictly increasing and adds exactly the new element. |
| Membership.SortedSet | node/app.py:156 | `sorted(set(xs))` is strictly increasing and has exactly the elements of xs. |
| Membership.SortedListUnique | node/app.py:156 | Two strictly increasing lists with the same elements are equal. |
| Membership.LiveReadyNodes | node/app.py:149-156 | The membership list holds exactly the addresses whose state is "ready", strictly sorted and without duplicates. |
| Membership.LiveReadyNodesCanonical | node/app.py:149-156 | The membership list is the only sorted list of the ready addresses. It depends neither on the registry's key order nor on repeated addresses. |
| Quorum.ComputeQuorums | node/app.py:158-163 | W+R > N for every N. For N >= 1: 1 <= W, R <= N, W+R = N+1, and W is half of N rounded up. For N = 0: W = R = 1. |
| Quorum.QuorumsIntersect | node/app.py:158-163 | Any W acknowledging nodes and any R answering nodes, taken from the same N live nodes, share a node. |
| Sampling.Sample | node/app.py:165-167 | The sample has min(k, \|xs\|) elements, drawn from xs without replacement (as multisets). |
| Sampling.SampleAllIsPermutation | node/app.py:194-195 | Drawing at least \|xs\| elements gives a reordering of xs. |
| Sampling.SampleDistinct | load_balancer/load_balancer.py:37-38 | A sample from a list without repeats has no repeats. |
| Coordinator.ChooseNodes | node/app.py:165-167 | The chosen nodes are min(n, \|nodes\|) distinct members of the list. With n = N they are exactly the live nodes. |
| Overload.WithOverloadProtection | node/app.py:169-182 | A request is shed (503, handler not run) exactly when in_flight >= MAX_IN_FLIGHT. Otherwise the handler runs with the counter raised by one and within the limit. Either way the counter ends where it started. |
| Overload.Step | node/app.py:172-180 | An arrival at or above the limit leaves the counter alone. Otherwise it adds one. A finish with requests in flight subtracts one. A finish with none in flight is impossible. The counter rises only up to the limit. |
| Overload.DefaultLimitBound | node/app.py:17 | With the default MAX_IN_FLIGHT of 32, starting from 0, the counter never exceeds 32. |
| Overload.RunStaysWithinLimit | node/app.py:169-182 | Over any interleaving of arrivals and completions that starts within the limit, in_flight never exceeds max(MAX_IN_FLIGHT, 0). |
| Coordinator.DeliverWrite | node/app.py:198-213 | One iteration of the write loop. Only the target node's store can change. The put reaches the store unless the request never left (unreachable). The node is counted exactly when the counting rule holds: the coordinator's own store when it accepted; another node when it answered (as written) or when it answered and accepted (corrected). |
| Coordinator.WriteFanout | node/app.py:196-213 | The success count is at most the number of chosen nodes. Nodes that were not chosen keep their stores. |
| Coordinator.WriteFanoutStores | node/app.py:198-213 | Over distinct chosen nodes, each chosen node's store ends as the put left it. The exception is another node that was unreachable, whose store is unchanged. |
| Coordinator.WriteFanoutCounts | node/app.py:196-213 | Over distinct chosen nodes, the loop's count equals the number of chosen nodes the rule counts, each judged against its store before the loop. |
| Coordinator.CoordinatorSet | node/app.py:186-220 | As written, successes is exactly the number of live ready nodes that answered. The coordinator itself counts only when its store accepted. "ok" exactly when that count reaches W. Every live ready node the request reaches or times out on applies the put. No other node's store changes. |
| Coordinator.AcceptedAcksAreHolders | node/app.py:198-203 | When only accepted puts are counted, each acknowledgement is a distinct chosen node that holds the write's request id when the loop ends. |
| Coordinator.CoordinatorSetAccepted | node/app.py:196-220 | With acceptance counted, successes is exactly the number of reached live ready nodes whose store accepted. "ok" means at least W live nodes hold the write's request id. |
| Coordinator.StaleRemoteAckCounted | node/app.py:205-215 | As written, a write that every contacted node ignored as older is reported "ok". The corrected count reports it as failed. |
| Coordinator.ReadFanout | node/app.py:230-247 | Every collected row belongs to a reached chosen node that holds the key. There are at most as many rows as chosen nodes. |
| Coordinator.ReadFanoutAppend | node/app.py:231-247 | Reading a list in two parts gives the first part's rows followed by the second's, so rows are collected in chosen order. |
| Coordinator.ReadFanoutSingle | node/app.py:232-245 | One node contributes its row exactly when it is reached and holds the key. |
| Coordinator.ReadFanoutIncludes | node/app.py:231-247 | Every reached chosen node that holds the key contributes its row. |
| Coordinator.FirstMax | node/app.py:250 | The position `max(results, key=ts)` picks. Its ts is at least every row's ts, and every earlier row's ts is strictly smaller, so it is the first maximum. |
| Coordinator.Latest | node/app.py:248-251 | not_found exactly when there are no results. Otherwise the answer is a result whose ts is maximal over all results, and every earlier result has a strictly smaller ts. |
| Coordinator.ReadCollectsReachedRows | node/app.py:229-247 | Over a chosen list with the live nodes as members, every reached holder contributes its row, and every collected row is a reached holder's row. |
| Coordinator.ReadFanoutOrigin | node/app.py:231-247 | The k-th collected row is the row of a reached holder at some position i of the chosen list, and the rows collected before it are exactly those of the nodes chosen before position i. |
| Coordinator.LatestInChosenOrder | node/app.py:229-250 | A found reply is the row of a reached holder at position i of the chosen list, and every reached holder chosen before i has a strictly smaller ts. So of two rows with equal ts, the one from the node chosen first wins. |
| Coordinator.CoordinatorGet | node/app.py:222-251 | not_found exactly when no reached live node holds the key. Otherwise it returns the value and ts of a reached node's row whose ts is at least every reached node's ts. On a tie, the row of the first such node in `choose_nodes` order wins. |
| Coordinator.QuorumReadAfterWrite | node/app.py:228-251 | Suppose at least W live nodes hold rows with ts >= t and at least R live nodes answer. Then the read finds the key with ts >= t. |
| Balancer.Refresh | load_balancer/load_balancer.py:18-31 | Within one second of the last fetch, the cache is returned unchanged. A complete scan sets the ready addresses in discovery order and last_fetch = now. Any failure keeps last_fetch. A failed key listing keeps the list. A failed entry read leaves the partial list. |
| Balancer.FirstCallScans | load_balancer/load_balancer.py:17-28 | The cache starts with last_fetch 0, so the first call scans the registry and a complete scan fills the cache. |
| Balancer.FailedRefreshIsRetried | load_balancer/load_balancer.py:20-30 | After a discovery failure, every later call still finds the cache stale and tries again. |
| Balancer.RefreshedCacheServedForOneSecond | load_balancer/load_balancer.py:19-31 | After a complete scan, calls within the next second get that list whatever discovery says. |
| Balancer.ShuffleShard | load_balancer/load_balancer.py:33-39 | For n >= 1 the shard is empty exactly when there are no cached nodes. Otherwise it has min(n, \|nodes\|) elements drawn without replacement from the cached list, with no repeats when the list has none. |
| Balancer.ShardStableWithinWindow | load_balancer/load_balancer.py:33-39 | Within the cache window a client gets the same shard and cache on every call. |
| Balancer.Dispatch | load_balancer/load_balancer.py:44-52 | An empty shard gives 503 "no available nodes" and no backend is contacted. The contacted backend is in the shard. A backend exception gives 503. Otherwise the backend's status is relayed. |
| Balancer.Proxy | load_balancer/load_balancer.py:41-65 | `proxy_set` / `proxy_get` call no backend when the refreshed list is empty. The backend they call belongs to the client's shard of five. The reply is 503 "backend error" exactly when that backend raises. Otherwise the backend's status is relayed unchanged. The answer is 503 exactly when the list is empty, the backend raises, or the backend itself answers 503. |
| Balancer.ProxyStableWithinWindow | load_balancer/load_balancer.py:33-65 | When requests are served one at a time: within the cache window, a client and each of its retries reach the same backend. `random.choice` draws from the generator seeded by the client id, right after the shard's draws. |
| Client.BackoffBase | client/client.py:9-10 | min(cap, base * 2^attempt) is at most the cap and at most base * 2^attempt. |
| Client.BackoffBaseMonotone | client/client.py:10 | The capped base never decreases from one attempt to the next. |
| Client.BackoffSleep | client/client.py:9-11 | The sleep lies in [0.5 d, 1.5 d), where d is the capped base. |
| Client.Classify | client/client.py:19-30 | A 200 returns. A 503 or an exception retries. Any other status stops. |
| Client.RetryRuleDeterminesRun | client/client.py:15-30 | For given replies and random draws, only one run follows the loop's rule, so the rule pins down the number of requests, the ending and every sleep. |
| Client.RetryLoop | client/client.py:15-30 | 1 to 5 requests are made, and every request but the last was retried. The last reply decides the outcome (200: returned; other non-503 status: stopped; 503 or exception: attempts exhausted). One sleep follows each retried request, including the final failed one. |
| Client.SetValue | client/client.py:13-30 | The requests follow the loop's rule: 1 to 5 of them, a 503 or an exception backs off and retries, a 200 returns, any other status stops, with one sleep after each retried request. Every request carries the same body and the same request id, fixed before the loop. It succeeds exactly when the last reply was 200. |
| Client.RequestIdFor | client/client.py:14 | The request id is the client id, a dash, and the millisecond clock in decimal digits that read back to the clock. |
| Client.DecimalRoundTrip | client/client.py:14 | Reading back the decimal digits of n gives n. |
| Client.RequestIdsDistinct | client/client.py:14 | Two calls of one client share a request id exactly when they read the same millisecond. |
| Client.GetValue | client/client.py:32-48 | The requests follow the same rule as `set_value`'s: 1 to 5 of them, a 503 or an exception backs off and retries, a 200 returns, any other status stops, with one sleep after each retried request. Every request is for the same key. It succeeds exactly when the last reply was 200. |
| Client.RetriesReplayAtNode | client/client.py:14-18 | Once one attempt of a `set_value` call is accepted by a node, its later attempts leave that node's store unchanged, provided no other request's write to the key reaches that node in between. |
| LoadTest.Record | test/loadtest.py:20-27 | Exactly one of success/failure goes up by one. One latency and one retry count are appended. Balance is kept. |
| LoadTest.RecordAllCounts | test/loadtest.py:20-27 | Over any sequence of records, success+failure = \|latencies\| = \|retries\|. The counters grow by the successful and failed samples respectively. |
| LoadTest.RecordAllKeepsOverloads | test/loadtest.py:20-27 | Recording requests never changes the overload count. |
| LoadTest.DelayBaseIncreasing | test/loadtest.py:77 | The deterministic part of the delay, base * 2^n, strictly increases with n. |
| LoadTest.SendWithRetries | test/loadtest.py:63-83 | `request_func` is called at most max_retries+1 times, and every call but the last failed. Success means a non-None response whose status is not 503. On success that response is returned and retries = earlier failures is recorded. A 503 is never returned. After exhaustion it returns None and records a failure with attempt = max_retries+1 and the last latency. Each delay lies in [base * 2^n, base * 2^n + jitter]. |
| LoadTest.RecordOverload | test/loadtest.py:29-31 | The overload counter goes up by one. Success, failure, latencies and retries are unchanged. |
| LoadTest.CheckOverload | test/loadtest.py:104-106 | A returned 503 adds one overload. Any other result leaves the statistics unchanged. Success, failure, latencies and retries never change. |
| LoadTest.SendAndCheck | test/loadtest.py:103-106 | The overload check after a call never fires. Exactly one request is recorded. |
| LoadTest.Increment | test/loadtest.py:52-54 | `completed` goes up by exactly one and the total is unchanged. |
| LoadTest.ClientTaskIteration | test/loadtest.py:103-112 | One set and one get. `completed` rises by two. Two requests are recorded. No overload is ever recorded. |
| LoadTest.ClientTask | test/loadtest.py:85-113 | After n iterations, `completed` rose by 2n (the two requests per iteration that the progress total counts). 2n requests are recorded, and the overload count is unchanged. |

## Findings

| source | as written | input that shows it | evidently intended | confidence | as-written member | corrected member |
|---|---|---|---|---|---|---|
| node/app.py:210-211 | A remote node counts as a write acknowledgement whenever `/internal/set` answers 200. That endpoint answers 200 also with "old_write_ignored" (node/app.py:101). Meanwhile, the coordinator's own store counts only when it accepted the write (node/app.py:200-202). | The only live node `peer` holds key `k` with ts 10 and request id `r1`. A write of `k` with ts 5 and request id `r2` arrives (N = 1, W = 1). `peer` ignores it and answers 200. The coordinator reports "ok" with 1 success, but no node holds `r2`. | Count a node only when its store accepted the write, as for the coordinator's own store. Then "ok" means at least W live nodes hold the write. | medium; not executed | Coordinator.StaleRemoteAckCounted (on Coordinator.CoordinatorSet) | Coordinator.CoordinatorSetAccepted |
| node/app.py:63-81 | `internal_set_local` reads the row with a SELECT (node/app.py:65) and writes it with a separate REPLACE (node/app.py:75-79). The two run on a fresh connection, outside any transaction or lock, and the node's Flask server is threaded (node/app.py:265). Two writes to one key can both pass their checks against the same row before either REPLACE lands. | An empty table. A write of `k` with ts 10 and request id `r1`, and a write of `k` with ts 5 and request id `r2`, both run their SELECT first. Both see no row. The ts-10 REPLACE commits, and then the ts-5 REPLACE. `k` ends with ts 5 although the ts-10 write was acknowledged. | The check and the write are atomic per key, so the stored ts never decreases (last writer wins). | medium; not executed | Store.InterleavedPutsLowerTs (on Store.InterleavedPuts) | Store.Put with Store.PutsNeverLowerTs |

## Left out

- Flask routing, JSON, HTTP calls and status plumbing: each node or backend response is an abstract outcome value.
- Redis registration, expiry, heartbeats and deregistration (node/app.py:38-54): these are I/O loops. The registry is a list of entries given as input.
- A registry hash with state "ready" but no address: `get_live_ready_nodes` would raise `KeyError` on it (node/app.py:155). The model's entries always carry an address. `register` writes both fields, but the hash can expire (node/app.py:22, 42) and `post_sync_set_ready` then re-creates it with "state" alone (node/app.py:145).
- `initial_sync` and `get_all_local_keys` (node/app.py:56-61, 114-141): these copy keys between nodes over the network.
- SQLite persistence and durability: the store is a map from key to record.
- The missing request id on `/internal/set` (`data.get("request_id")` may be None): the coordinator always supplies one.
- Locks and threads: the in-flight counter is a sequence of atomic steps, and the load test's threads, `progress_reporter` and `report` are not modelled.
- Store.PutsNeverLowerTs: each put is one atomic step in the model, so the property holds for puts that a node serializes. The threaded node server does not serialize them (node/app.py:65, 75-79, 265). Store.InterleavedPuts models the one interleaving of two puts that breaks it. The rest of the model (the coordinator, the client's replays) assumes the corrected, atomic put, as recorded under "## Findings".
- Balancer.ProxyStableWithinWindow: the load balancer is modelled as serving one request at a time. Flask's threaded server (load_balancer/load_balancer.py:68) lets requests share the module-level `random` generator and `NODE_CACHE`, with two effects. Another client's `random.seed` can run between one request's `random.sample` and its `random.choice`, and then a retry may reach a different backend. And two overlapping refreshes can append into the same new list (load_balancer/load_balancer.py:23-27), so an address can appear twice. Balancer.Refresh's "ready addresses in discovery order" holds only without that overlap.
- Generation of request ids, node ids and timestamps from `random` and `time.time()` (node/app.py:18, 190-191): these values are inputs.
- Float timestamps and delays: integer milliseconds are used instead. Float rounding and NaN are not modelled.
- Sampling.Sample: Python's salted string hash and Mersenne Twister are not modelled. `Sample` is a concrete deterministic function. Only its contract (size, drawn without replacement, deterministic for a given seed and list) is used by the rest of the model.
- LoadTest.SendWithRetries: `max_retries` is a natural number. A negative value would leave `latency` unbound, and Python would raise instead of recording.
- Coordinator.CoordinatorGet: the reply includes the key in the source. That field is not modelled because it is always the requested key.
- test/consistency_check.py and test/test_cluster.py: these are interactive probe scripts that only print.

=== FILE: balancer.dfy ===
/** The load balancer: a membership cache refreshed at most once a second, the
    per-client shuffle shard, and the dispatch of one request to one shard member. */
module Balancer {
  import opened Common
  import opened Registry
  import opened Sampling

  /** `NODE_CACHE`: the cached node list and the time of the last successful refresh (ms). */
  datatype Cache = Cache(nodes: seq<Addr>, lastFetch: int)

  const InitialCache: Cache := Cache([], 0)

  /** The cache is refreshed when more than one second has passed since the last fetch. */
  const RefreshAfterMs: int := 1000

  /** The shard size the proxy endpoints ask for. */
  const ProxyShardSize: nat := 5

  /** What one discovery attempt against the registry does: listing the keys fails before
      anything is touched; or every entry is read; or reading one entry fails after the
      entries before it (`scanned`) were read. */
  datatype Discovery = KeysFailed | Listed(entries: seq<Entry>) | FailedAfter(scanned: seq<Entry>)

  predicate Stale(c: Cache, now: int)
  {
    now - c.lastFetch > RefreshAfterMs
  }

  /** `get_live_ready_nodes` of the load balancer. */
  function Refresh(c: Cache, now: int, d: Discovery): (r: Cache)
    // within a second of the last fetch the cache is served as it is
    ensures !Stale(c, now) ==> r == c
    // the fetch time moves only on a complete scan, and then to now
    ensures r.lastFetch == now || r.lastFetch == c.lastFetch
    ensures Stale(c, now) && d.Listed? ==> r == Cache(ReadyAddrs(d.entries), now)
    // a failure keeps the old fetch time, so the next call tries again
    ensures !d.Listed? ==> r.lastFetch == c.lastFetch
    // a failed key listing leaves the list alone; a failed entry read leaves the ready
    // addresses read so far
    ensures d.KeysFailed? ==> r == c
    ensures Stale(c, now) && d.FailedAfter? ==> r.nodes == ReadyAddrs(d.scanned)
  {
    if !Stale(c, now) then c
    else match d
      case KeysFailed => c
      case Listed(entries) => Cache(ReadyAddrs(entries), now)
      case FailedAfter(scanned) => Cache(ReadyAddrs(scanned), c.lastFetch)
  }

  /** The cache starts with last_fetch 0, so the first call after startup scans the
      registry, and a complete scan fills the cache. */
  lemma FirstCallScans(now: int, entries: seq<Entry>)
    requires now > RefreshAfterMs
    ensures Refresh(InitialCache, now, Listed(entries)) == Cache(ReadyAddrs(entries), now)
  {
  }

  /** A discovery failure is retried on every later call until a scan completes. */
  lemma FailedRefreshIsRetried(c: Cache, now: int, d: Discovery, later: int)
    requires Stale(c, now) && !d.Listed?
    requires later >= now
    ensures Stale(Refresh(c, now, d), later)
  {
  }

  /** After a complete scan, every call within the next second is served from the cache,
      whatever the registry would say. */
  lemma RefreshedCacheServedForOneSecond(c: Cache, now: int, entries: seq<Entry>, later: int, d: Discovery)
    requires Stale(c, now)
    requires now <= later <= now + RefreshAfterMs
    ensures Refresh(Refresh(c, now, Listed(entries)), later, d) == Cache(ReadyAddrs(entries), now)
  {
  }

  /** The refreshed cache, the shard, and the state the seeded generator is left in. */
  datatype ShardResult = ShardResult(cache: Cache, shard: seq<Addr>, state: int)

  /** `shuffle_shard(client_id, n)`: refresh the cache, then draw min(n, |nodes|) of the
      cached nodes, seeded by the client id alone. */
  function ShuffleShard(c: Cache, now: int, d: Discovery, clientId: string, salt: int, n: nat): (r: ShardResult)
    ensures r.cache == Refresh(c, now, d)
    ensures r.cache.nodes == [] ==> r.shard == []
    ensures n >= 1 ==> (r.shard == [] <==> r.cache.nodes == [])
    ensures |r.shard| == Min(n, |r.cache.nodes|)
    // drawn without replacement from the cached list
    ensures multiset(r.shard) <= multiset(r.cache.nodes)
    ensures forall a :: a in r.shard ==> a in r.cache.nodes
    ensures Distinct(r.cache.nodes) ==> Distinct(r.shard)
  {
    var cache := Refresh(c, now, d);
    if cache.nodes == [] then ShardResult(cache, [], Hash(clientId, salt))
    else
      SampleMembers(Hash(clientId, salt), cache.nodes, n);
      ShardResult(cache, Sample(Hash(clientId, salt), cache.nodes, n), SampleState(Hash(clientId, salt), cache.nodes, n))
  }

  /** Within the cache window a client keeps its shard: a second call returns the same
      cache and the same shard, whatever discovery would have said. */
  lemma ShardStableWithinWindow(c: Cache, now: int, d: Discovery, later: int, d': Discovery,
                                clientId: string, salt: int, n: nat)
    requires !Stale(ShuffleShard(c, now, d, clientId, salt, n).cache, later)
    ensures ShuffleShard(ShuffleShard(c, now, d, clientId, salt, n).cache, later, d', clientId, salt, n)
            == ShuffleShard(c, now, d, clientId, salt, n)
  {
  }

  /** What one backend call does: it returns a response with a status, or raises. */
  datatype Backend = Responds(status: int) | Raises

  /** The proxy's answer: 503 "no available nodes", 503 "backend error" from the node it
      called, or the node's own response relayed. */
  datatype ProxyReply = NoAvailableNodes | BackendError(node: Addr) | Relayed(node: Addr, status: int)
  {
    function Status(): int
    {
      match this
      case NoAvailableNodes => 503
      case BackendError(_) => 503
      case Relayed(_, s) => s
    }

    /** The backend that was contacted, if any. */
    function Contacted(): Option<Addr>
    {
      if NoAvailableNodes? then None else Some(node)
    }
  }

  /** The body shared by `proxy_set` and `proxy_get` once the shard is known:
      `random.choice(candidates)` draws a position from the generator state `state`, and
      the chosen backend is called once. */
  function Dispatch(shard: seq<Addr>, state: int, backend: Addr -> Backend): (r: ProxyReply)
    ensures r.NoAvailableNodes? <==> shard == []
    ensures r.Contacted().Some? ==> r.Contacted().value in shard
    ensures r.Contacted().Some? ==> (r.BackendError? <==> backend(r.node).Raises?)
    ensures r.Relayed? ==> backend(r.node) == Responds(r.status)
    ensures r.Status() == 503 <==> shard == [] || backend(r.node).Raises? || backend(r.node) == Responds(503)
  {
    if shard == [] then NoAvailableNodes
    else
      var node := shard[Pick(state, |shard|)];
      match backend(node)
      case Raises => BackendError(node)
      case Responds(s) => Relayed(node, s)
  }

  datatype ProxyOutcome = ProxyOutcome(cache: Cache, reply: ProxyReply)

  /** `proxy_set` / `proxy_get`: the client's shard of five, then one call to one member.
      The choice draws from the generator `shuffle_shard` has just seeded with the client
      id, right after the shard's own draws. */
  function Proxy(c: Cache, now: int, d: Discovery, clientId: string, salt: int,
                 backend: Addr -> Backend): (r: ProxyOutcome)
    ensures r.cache == Refresh(c, now, d)
    // no backend is called when the refreshed list is empty
    ensures r.reply.NoAvailableNodes? <==> r.cache.nodes == []
    // the called backend is in the client's shard
    ensures r.reply.Contacted().Some? ==>
              r.reply.Contacted().value in ShuffleShard(c, now, d, clientId, salt, ProxyShardSize).shard
    // a raising backend gives 503 "backend error", and only a raising backend does
    ensures r.reply.Contacted().Some? ==> (r.reply.BackendError? <==> backend(r.reply.node).Raises?)
    ensures r.reply.BackendError? ==> r.reply.Status() == 503
    // a responding backend's status is relayed unchanged
    ensures r.reply.Relayed? ==> backend(r.reply.node) == Responds(r.reply.status)
    ensures r.reply.Status() == 503 <==>
              r.cache.nodes == [] || backend(r.reply.node).Raises? || backend(r.reply.node) == Responds(503)
  {
    var s := ShuffleShard(c, now, d, clientId, salt, ProxyShardSize);
    ProxyOutcome(s.cache, Dispatch(s.shard, s.state, backend))
  }

  /** Within the cache window a client and each of its retries reach the same backend:
      the choice depends only on the client id and the cached list. */
  lemma ProxyStableWithinWindow(c: Cache, now: int, d: Discovery, later: int, d': Discovery,
                                clientId: string, salt: int, backend: Addr -> Backend, backend': Addr -> Backend)
    requires !Stale(Proxy(c, now, d, clientId, salt, backend).cache, later)
    ensures var first := Proxy(c, now, d, clientId, salt, backend);
            var again := Proxy(first.cache, later, d', clientId, salt, backend');
            again.cache == first.cache && again.reply.Contacted() == first.reply.Contacted()
  {
    ShardStableWithinWindow(c, now, d, later, d', clientId, salt, ProxyShardSize);
  }
}

=== FILE: client.dfy ===
/** The client library: `set_value` and `get_value` try a request up to five times,
    return on 200, back off and retry on 503 or an exception, and stop on any other
    status. Sleep times are in microseconds; `random.random()` is a draw in thousandths. */
module Client {
  import opened Common
  import opened Store

  const MaxAttempts: nat := 5

  /** `backoff`'s defaults: base 0.2 s and cap 2.0 s, in milliseconds. */
  const BaseMs: nat := 200
  const CapMs: nat := 2000

  /** `random.random()` in [0, 1), as thousandths. */
  type Permille = x: nat | x < 1000

  /** The deterministic part of `backoff`: min(cap, base * 2^attempt) milliseconds. */
  function BackoffBase(attempt: nat, base: nat, cap: nat): (d: nat)
    ensures d <= cap
    ensures d <= base * Pow2(attempt)
    ensures d == cap || d == base * Pow2(attempt)
  {
    Min(cap, base * Pow2(attempt))
  }

  /** The capped base never shrinks from one attempt to the next. */
  lemma BackoffBaseMonotone(m: nat, n: nat, base: nat, cap: nat)
    requires m <= n
    ensures BackoffBase(m, base, cap) <= BackoffBase(n, base, cap)
  {
    if m < n {
      Pow2StrictlyIncreasing(m, n);
      assert base * Pow2(m) <= base * Pow2(n) by {
        MultiplyMonotone(base, Pow2(m), Pow2(n));
      }
    }
  }

  lemma MultiplyMonotone(a: nat, x: nat, y: nat)
    requires x <= y
    ensures a * x <= a * y
  {
  }

  /** The sleep of `backoff` in microseconds: the base times (u + 0.5), which lies in
      [0.5 d, 1.5 d) milliseconds. */
  function BackoffSleep(attempt: nat, base: nat, cap: nat, u: Permille): (us: nat)
    ensures 500 * BackoffBase(attempt, base, cap) <= us
    ensures BackoffBase(attempt, base, cap) > 0 ==> us < 1500 * BackoffBase(attempt, base, cap)
    ensures us < 1500 * cap || cap == 0
  {
    BackoffBase(attempt, base, cap) * (u + 500)
  }

  /** What one request does: an HTTP status, or an exception. */
  datatype Reply = Status(code: int) | Raised

  /** What the loop does with a reply: return, back off and retry, or stop. */
  datatype Verdict = Done | Retry | Stop

  function Classify(r: Reply): (v: Verdict)
    ensures v == Done <==> r == Status(200)
    ensures v == Retry <==> r == Status(503) || r == Raised
  {
    match r
    case Raised => Retry
    case Status(code) => if code == 200 then Done else if code == 503 then Retry else Stop
  }

  datatype Ending = Succeeded | Stopped | Exhausted

  /** One run of the retry loop: how it ended, how many requests it sent, and the sleeps
      it took, in order. */
  datatype ClientRun = ClientRun(ending: Ending, attempts: nat, sleeps: seq<nat>)

  /** The rule of the five-attempt loop in `set_value` and `get_value`, as a relation
      between a run, the replies and the random draws: every request before the last was
      retried, the last reply decides how the run ended, and one backoff sleep follows
      each retried request, including the last one of an exhausted loop. */
  predicate FollowsRetryRule(run: ClientRun, replies: nat -> Reply, draws: nat -> Permille)
  {
    && 1 <= run.attempts <= MaxAttempts
    && (forall i :: 0 <= i < run.attempts - 1 ==> Classify(replies(i)) == Retry)
    && (run.ending == Succeeded <==> Classify(replies(run.attempts - 1)) == Done)
    && (run.ending == Stopped <==> Classify(replies(run.attempts - 1)) == Stop)
    && (run.ending == Exhausted ==> run.attempts == MaxAttempts)
    && |run.sleeps| == (if run.ending == Exhausted then run.attempts else run.attempts - 1)
    && (forall i :: 0 <= i < |run.sleeps| ==> run.sleeps[i] == BackoffSleep(i, BaseMs, CapMs, draws(i)))
  }

  /** The rule leaves no freedom: for given replies and draws, at most one run follows it. */
  lemma RetryRuleDeterminesRun(r1: ClientRun, r2: ClientRun, replies: nat -> Reply, draws: nat -> Permille)
    requires FollowsRetryRule(r1, replies, draws) && FollowsRetryRule(r2, replies, draws)
    ensures r1 == r2
  {
  }

  /** The loop shared by `set_value` and `get_value`. `replies(i)` is what the i-th request
      does and `draws(i)` the random factor of the i-th backoff. */
  method RetryLoop(replies: nat -> Reply, draws: nat -> Permille) returns (run: ClientRun)
    ensures FollowsRetryRule(run, replies, draws)
  {
    var sleeps: seq<nat> := [];
    var attempt := 0;
    while attempt < MaxAttempts
      invariant 0 <= attempt <= MaxAttempts
      invariant forall i :: 0 <= i < attempt ==> Classify(replies(i)) == Retry
      invariant |sleeps| == attempt
      invariant forall i :: 0 <= i < attempt ==> sleeps[i] == BackoffSleep(i, BaseMs, CapMs, draws(i))
    {
      var verdict := Classify(replies(attempt));
      if verdict == Done {
        return ClientRun(Succeeded, attempt + 1, sleeps);
      } else if verdict == Stop {
        return ClientRun(Stopped, attempt + 1, sleeps);
      }
      sleeps := sleeps + [BackoffSleep(attempt, BaseMs, CapMs, draws(attempt))];
      attempt := attempt + 1;
    }
    return ClientRun(Exhausted, MaxAttempts, sleeps);
  }

  predicate IsDigit(ch: char)
  {
    '0' <= ch <= '9'
  }

  /** `str(n)`: the digits of n in base ten. */
  function Decimal(n: nat): (s: string)
    ensures |s| > 0
    ensures forall i :: 0 <= i < |s| ==> IsDigit(s[i])
  {
    if n < 10 then [(48 + n) as char] else Decimal(n / 10) + [(48 + n % 10) as char]
  }

  /** The number a string of decimal digits denotes. */
  function DecimalValue(s: string): nat
    requires forall i :: 0 <= i < |s| ==> IsDigit(s[i])
    decreases |s|
  {
    if |s| == 0 then 0
    else
      assert IsDigit(s[|s| - 1]);
      DecimalValue(s[..|s| - 1]) * 10 + (s[|s| - 1] as int - '0' as int)
  }

  /** Reading back the digits of n gives n, so different numbers have different digits. */
  lemma {:induction false} DecimalRoundTrip(n: nat)
    ensures DecimalValue(Decimal(n)) == n
    decreases n
  {
    if n >= 10 {
      DecimalRoundTrip(n / 10);
      var s := Decimal(n);
      assert s[..|s| - 1] == Decimal(n / 10);
    }
  }

  /** `f"{client_id}-{int(time.time()*1000)}"`: the client id, a dash, and the
      millisecond clock in decimal. */
  function RequestIdFor(clientId: string, millis: nat): (rid: RequestId)
    ensures |rid| > |clientId| + 1
    ensures rid[..|clientId| + 1] == clientId + "-"
    ensures forall i :: |clientId| + 1 <= i < |rid| ==> IsDigit(rid[i])
    ensures DecimalValue(rid[|clientId| + 1..]) == millis
  {
    DecimalRoundTrip(millis);
    var rid := clientId + "-" + Decimal(millis);
    assert rid[|clientId| + 1..] == Decimal(millis);
    rid
  }

  /** Two `set_value` calls of one client get different request ids exactly when they
      read different millisecond clocks. */
  lemma RequestIdsDistinct(clientId: string, m1: nat, m2: nat)
    ensures RequestIdFor(clientId, m1) == RequestIdFor(clientId, m2) <==> m1 == m2
  {
    if RequestIdFor(clientId, m1) == RequestIdFor(clientId, m2) {
      assert RequestIdFor(clientId, m1)[|clientId| + 1..] == RequestIdFor(clientId, m2)[|clientId| + 1..];
    }
  }

  /** The JSON body `set_value` posts. */
  datatype SetRequest = SetRequest(key: Key, value: Value, requestId: RequestId)

  /** `set_value`: the request id is fixed before the loop, so every attempt posts the
      same body and a retry reaches a node as a replay of the same request id. */
  method SetValue(key: Key, value: Value, clientId: string, millis: nat,
                  replies: nat -> Reply, draws: nat -> Permille) returns (run: ClientRun, sent: seq<SetRequest>)
    ensures FollowsRetryRule(run, replies, draws)
    ensures |sent| == run.attempts
    ensures forall i :: 0 <= i < |sent| ==> sent[i] == SetRequest(key, value, RequestIdFor(clientId, millis))
    ensures run.ending == Succeeded <==> replies(run.attempts - 1) == Status(200)
  {
    var rid := RequestIdFor(clientId, millis);
    run := RetryLoop(replies, draws);
    sent := seq(run.attempts, _ => SetRequest(key, value, rid));
  }

  /** `get_value`: the same loop around a read. */
  method GetValue(key: Key, clientId: string, replies: nat -> Reply, draws: nat -> Permille)
    returns (run: ClientRun, sent: seq<Key>)
    ensures FollowsRetryRule(run, replies, draws)
    ensures |sent| == run.attempts
    ensures forall i :: 0 <= i < |sent| ==> sent[i] == key
    ensures run.ending == Succeeded <==> replies(run.attempts - 1) == Status(200)
  {
    run := RetryLoop(replies, draws);
    sent := seq(run.attempts, _ => key);
  }

  /** The node-side writes of one `set_value` call, one per attempt; each attempt gets the
      coordinator's own timestamp, because the client sends none. */
  function AttemptWrites(sent: seq<SetRequest>, stamps: seq<int>): (ws: seq<Write>)
    requires |stamps| == |sent|
    ensures |ws| == |sent|
    ensures forall i :: 0 <= i < |ws| ==> ws[i] == Write(sent[i].key, sent[i].value, stamps[i], sent[i].requestId)
  {
    seq(|sent|, i requires 0 <= i < |sent| => Write(sent[i].key, sent[i].value, stamps[i], sent[i].requestId))
  }

  /** Once one attempt of a `set_value` call has been accepted by a node, the node takes
      every later attempt of that call as a replay: its store no longer changes, whatever
      timestamps the later attempts carry. */
  lemma RetriesReplayAtNode(key: Key, value: Value, clientId: string, millis: nat,
                            sent: seq<SetRequest>, stamps: seq<int>, s: Store, i: nat)
    requires forall j :: 0 <= j < |sent| ==> sent[j] == SetRequest(key, value, RequestIdFor(clientId, millis))
    requires |stamps| == |sent| && i < |sent|
    requires Put(s, AttemptWrites(sent, stamps)[i]).accepted
    ensures var ws := AttemptWrites(sent, stamps);
            PutAll(Put(s, ws[i]).store, ws[i + 1..]) == Put(s, ws[i]).store
  {
    var ws := AttemptWrites(sent, stamps);
    AcceptedThenReplays(s, ws[i], ws[i + 1..]);
  }
}

=== FILE: common.dfy ===
/** Small shared vocabulary: an optional value, integer helpers and sequence predicates. */
module Common {

  /** A value that may be missing (Python's `None`). */
  datatype Option<+T> = None | Some(value: T)

  function Min(a: int, b: int): int
  {
    if a <= b then a else b
  }

  function Max(a: int, b: int): int
  {
    if a >= b then a else b
  }

  /** 2 to the power n, the integer `2 ** n` of the Python code. */
  function Pow2(n: nat): (r: nat)
    ensures r >= 1
  {
    if n == 0 then 1 else 2 * Pow2(n - 1)
  }

  /** Pow2 is strictly increasing. */
  lemma {:induction false} Pow2StrictlyIncreasing(m: nat, n: nat)
    requires m < n
    ensures Pow2(m) < Pow2(n)
  {
    if n != m + 1 {
      Pow2StrictlyIncreasing(m, n - 1);
    }
  }

  /** No element occurs twice. */
  predicate Distinct<T(==)>(xs: seq<T>)
  {
    forall i, j :: 0 <= i < j < |xs| ==> xs[i] != xs[j]
  }

  /** Dropping the head of a list without repeats leaves a list without repeats that no
      longer holds the head. */
  lemma DistinctTail<T>(xs: seq<T>)
    requires |xs| > 0 && Distinct(xs)
    ensures Distinct(xs[1..])
    ensures xs[0] !in xs[1..]
  {
    var tail := xs[1..];
    forall i, j | 0 <= i < j < |tail| ensures tail[i] != tail[j] {
      assert tail[i] == xs[i + 1] && tail[j] == xs[j + 1];
    }
    forall i | 0 <= i < |tail| ensures tail[i] != xs[0] {
      assert tail[i] == xs[i + 1];
    }
  }
}

=== FILE: coordinator.dfy ===
/** The node's quorum coordinator (`coordinator_set`, `coordinator_get`): it takes the
    sorted list of live ready nodes, sizes the quorums from its length, lets the client id
    choose an order of the nodes, fans the operation out to every chosen node and
    aggregates the per-node outcomes.

    The cluster is a map from node address to that node's store. In the running system
    the coordinator's own address always has a store (`get_db` creates its table at
    startup); the model does not require it, and treats any address without a store,
    the coordinator's included, as a node that is never reached. A node other than the
    coordinator itself is reached over a link: it answers, it is unreachable (the request
    raises before the node does anything), or it times out after applying the request. */
module Coordinator {
  import opened Common
  import opened Registry
  import opened Membership
  import opened Sampling
  import opened Store
  import opened Quorum

  type Cluster = map<Addr, Store>

  datatype Link = Answers | Unreachable | TimesOut

  /** `choose_nodes(client_id, n, nodes)`. */
  function ChooseNodes(clientId: string, salt: int, n: nat, nodes: seq<Addr>): (r: seq<Addr>)
    ensures |r| == Min(n, |nodes|)
    ensures multiset(r) <= multiset(nodes)
    ensures forall a :: a in r ==> a in nodes
    ensures Distinct(nodes) ==> Distinct(r)
    ensures n >= |nodes| ==> forall a :: a in r <==> a in nodes
  {
    SampleMembers(Hash(clientId, salt), nodes, n);
    Sample(Hash(clientId, salt), nodes, n)
  }

  /** Whether the coordinator hears back from node a: its own store always, another
      node only over a link that answers. */
  predicate Reached(c: Cluster, self: Addr, a: Addr, link: Addr -> Link)
  {
    a in c && (a == self || link(a) == Answers)
  }

  // ---------------------------------------------------------------- writes

  /** How a per-node write is counted towards W. `AnyAnswer` is the code as written: a
      remote node counts whenever it answers with status 200, and `/internal/set` answers
      200 also when it ignored the write as older. `AcceptedOnly` counts a node only when
      its store accepted the write, which is how the coordinator's own store is counted. */
  datatype AckRule = AnyAnswer | AcceptedOnly

  datatype Delivery = Delivery(cluster: Cluster, acked: bool)

  /** Whether the write loop counts node a towards W: the coordinator's own store when it
      accepted the write; another node when it answered (`AnyAnswer`), or when it answered
      and its store accepted the write (`AcceptedOnly`). */
  predicate Acks(c: Cluster, self: Addr, a: Addr, w: Write, link: Addr -> Link, rule: AckRule)
  {
    Reached(c, self, a, link) && ((a == self || rule == AcceptedOnly) ==> Put(c[a], w).accepted)
  }

  /** The nodes of a list that the write loop counts, judged against the stores in c. */
  function AckSet(c: Cluster, self: Addr, nodes: seq<Addr>, w: Write, link: Addr -> Link, rule: AckRule): set<Addr>
  {
    set a | a in nodes && Acks(c, self, a, w, link, rule)
  }

  /** One iteration of the write loop: the write sent to node a. */
  function DeliverWrite(c: Cluster, self: Addr, a: Addr, w: Write, link: Addr -> Link, rule: AckRule): (d: Delivery)
    ensures d.cluster.Keys == c.Keys
    ensures forall b :: b in c && b != a ==> d.cluster[b] == c[b]
    // the write reaches the store unless the request never left the coordinator
    ensures a in c && (a == self || link(a) != Unreachable) ==> d.cluster[a] == Put(c[a], w).store
    ensures a in c && a != self && link(a) == Unreachable ==> d.cluster[a] == c[a]
    // the node is counted exactly when the rule says so
    ensures d.acked <==> Acks(c, self, a, w, link, rule)
    // under the corrected rule, an acknowledging node now holds the write's request id
    ensures d.acked && rule == AcceptedOnly ==> d.cluster[a] == Put(c[a], w).store && Put(c[a], w).accepted
  {
    if a !in c then Delivery(c, false)
    else
      var p := Put(c[a], w);
      if a == self then Delivery(c[a := p.store], p.accepted)
      else match link(a)
        case Unreachable => Delivery(c, false)
        case TimesOut => Delivery(c[a := p.store], false)
        case Answers => Delivery(c[a := p.store], if rule == AnyAnswer then true else p.accepted)
  }

  datatype Fanout = Fanout(cluster: Cluster, successes: nat)

  /** The write loop over the chosen nodes, in order. */
  function WriteFanout(c: Cluster, self: Addr, chosen: seq<Addr>, w: Write, link: Addr -> Link, rule: AckRule): (r: Fanout)
    ensures r.successes <= |chosen|
    ensures r.cluster.Keys == c.Keys
    // nodes that were not chosen keep their stores
    ensures forall b :: b in c && b !in chosen ==> r.cluster[b] == c[b]
    decreases |chosen|
  {
    if |chosen| == 0 then Fanout(c, 0)
    else
      var d := DeliverWrite(c, self, chosen[0], w, link, rule);
      var rest := WriteFanout(d.cluster, self, chosen[1..], w, link, rule);
      assert forall b :: b !in chosen ==> b != chosen[0] && b !in chosen[1..];
      Fanout(rest.cluster, rest.successes + if d.acked then 1 else 0)
  }

  /** Changing the store of a node outside the list does not change which nodes of the
      list are counted. */
  lemma AckSetFrame(c: Cluster, c': Cluster, self: Addr, nodes: seq<Addr>, w: Write, link: Addr -> Link,
                    rule: AckRule, a: Addr)
    requires c'.Keys == c.Keys && a !in nodes
    requires forall b :: b in c && b != a ==> c'[b] == c[b]
    ensures AckSet(c', self, nodes, w, link, rule) == AckSet(c, self, nodes, w, link, rule)
  {
    forall b | b in nodes
      ensures Acks(c', self, b, w, link, rule) <==> Acks(c, self, b, w, link, rule)
    {
      assert b != a;
    }
  }

  /** What the write leaves in a node's store: the put's result, unless the node is another
      node the request never reached. */
  function Delivered(c: Cluster, self: Addr, a: Addr, w: Write, link: Addr -> Link): Store
    requires a in c
  {
    if a == self || link(a) != Unreachable then Put(c[a], w).store else c[a]
  }

  /** Over distinct chosen nodes every chosen node's store ends as its own delivery left
      it: the coordinator's store and every reachable or timed-out node apply the put. */
  lemma {:induction false} WriteFanoutStores(c: Cluster, self: Addr, chosen: seq<Addr>, w: Write, link: Addr -> Link,
                                             rule: AckRule)
    requires Distinct(chosen)
    ensures forall a :: a in chosen && a in c ==> WriteFanout(c, self, chosen, w, link, rule).cluster[a] == Delivered(c, self, a, w, link)
    decreases |chosen|
  {
    if |chosen| > 0 {
      var a := chosen[0];
      var tail := chosen[1..];
      DistinctTail(chosen);
      var d := DeliverWrite(c, self, a, w, link, rule);
      WriteFanoutStores(d.cluster, self, tail, w, link, rule);
      assert forall b :: b in chosen <==> b == a || b in tail by {
        assert chosen == [a] + tail;
      }
      forall b | b in tail && b in c
        ensures Delivered(d.cluster, self, b, w, link) == Delivered(c, self, b, w, link)
      {
        assert b != a;
      }
    }
  }

  /** The counted nodes of a list are its counted head, if any, and the counted nodes of its tail. */
  lemma AckSetHead(c: Cluster, self: Addr, nodes: seq<Addr>, w: Write, link: Addr -> Link, rule: AckRule)
    requires |nodes| > 0
    ensures AckSet(c, self, nodes, w, link, rule)
            == AckSet(c, self, nodes[1..], w, link, rule) + (if Acks(c, self, nodes[0], w, link, rule) then {nodes[0]} else {})
  {
    assert forall b :: b in nodes <==> b == nodes[0] || b in nodes[1..] by {
      assert nodes == [nodes[0]] + nodes[1..];
    }
  }

  /** Over distinct chosen nodes the loop's count is the number of chosen nodes the rule
      counts, each judged against its store as it was before the loop. */
  lemma {:induction false} WriteFanoutCounts(c: Cluster, self: Addr, chosen: seq<Addr>, w: Write, link: Addr -> Link,
                                             rule: AckRule)
    requires Distinct(chosen)
    ensures WriteFanout(c, self, chosen, w, link, rule).successes == |AckSet(c, self, chosen, w, link, rule)|
    decreases |chosen|
  {
    if |chosen| > 0 {
      var a := chosen[0];
      var tail := chosen[1..];
      DistinctTail(chosen);
      var d := DeliverWrite(c, self, a, w, link, rule);
      WriteFanoutCounts(d.cluster, self, tail, w, link, rule);
      AckSetFrame(c, d.cluster, self, tail, w, link, rule, a);
      AckSetHead(c, self, chosen, w, link, rule);
      var later := AckSet(c, self, tail, w, link, rule);
      assert a !in later;
      assert WriteFanout(c, self, chosen, w, link, rule).successes
             == WriteFanout(d.cluster, self, tail, w, link, rule).successes + if d.acked then 1 else 0;
    }
  }

  /** The chosen nodes whose store holds request id rid for key. */
  function Holders(c: Cluster, chosen: seq<Addr>, key: Key, rid: RequestId): set<Addr>
  {
    set a | a in chosen && a in c && key in c[a] && c[a][key].requestId == rid
  }

  /** Under the corrected rule every counted acknowledgement is a distinct chosen node that,
      when the loop ends, holds the write's request id. */
  lemma {:induction false} AcceptedAcksAreHolders(c: Cluster, self: Addr, chosen: seq<Addr>, w: Write, link: Addr -> Link)
    requires Distinct(chosen)
    ensures var r := WriteFanout(c, self, chosen, w, link, AcceptedOnly);
            r.successes <= |Holders(r.cluster, chosen, w.key, w.requestId)|
    decreases |chosen|
  {
    if |chosen| > 0 {
      var a := chosen[0];
      var d := DeliverWrite(c, self, a, w, link, AcceptedOnly);
      var tail := chosen[1..];
      DistinctTail(chosen);
      AcceptedAcksAreHolders(d.cluster, self, tail, w, link);
      var rest := WriteFanout(d.cluster, self, tail, w, link, AcceptedOnly);
      var all := Holders(rest.cluster, chosen, w.key, w.requestId);
      var later := Holders(rest.cluster, tail, w.key, w.requestId);
      assert forall b :: b in chosen <==> b == a || b in tail by {
        assert chosen == [a] + tail;
      }
      assert later <= all;
      if d.acked {
        assert rest.cluster[a] == d.cluster[a];
        assert all == later + {a};
        assert a !in later;
      } else {
        SubsetCard(later, all);
      }
    }
  }

  datatype SetReply = WriteOk(successes: nat) | WriteFailed(successes: nat)

  datatype SetOutcome = SetOutcome(cluster: Cluster, reply: SetReply)

  /** `coordinator_set` under a given counting rule. The loop visits every live ready node
      once, so its count is the number of live ready nodes the rule counts. */
  function SetCoordinated(c: Cluster, self: Addr, entries: seq<Entry>, clientId: string, salt: int,
                          w: Write, link: Addr -> Link, rule: AckRule): (r: SetOutcome)
    ensures var nodes := LiveReadyNodes(entries);
            && r.reply.successes == |AckSet(c, self, nodes, w, link, rule)|
            && (r.reply.WriteOk? <==> r.reply.successes >= ComputeQuorums(|nodes|).w)
            && r.reply.successes <= |nodes|
            && r.cluster.Keys == c.Keys
            // every live ready node the request reaches applies the put
            && (forall a :: a in nodes && a in c ==> r.cluster[a] == Delivered(c, self, a, w, link))
            && (forall b :: b in c && b !in nodes ==> r.cluster[b] == c[b])
  {
    var nodes := LiveReadyNodes(entries);
    var q := ComputeQuorums(|nodes|);
    var chosen := ChooseNodes(clientId, salt, q.n, nodes);
    var f := WriteFanout(c, self, chosen, w, link, rule);
    WriteFanoutCounts(c, self, chosen, w, link, rule);
    WriteFanoutStores(c, self, chosen, w, link, rule);
    assert AckSet(c, self, chosen, w, link, rule) == AckSet(c, self, nodes, w, link, rule);
    SetOutcome(f.cluster, if f.successes >= q.w then WriteOk(f.successes) else WriteFailed(f.successes))
  }

  /** `coordinator_set` as written: the count is the number of live ready nodes that
      answered, the coordinator itself counting only when its store accepted the write;
      "ok" exactly when that count reaches W; only live ready nodes receive the write. */
  function CoordinatorSet(c: Cluster, self: Addr, entries: seq<Entry>, clientId: string, salt: int,
                          w: Write, link: Addr -> Link): (r: SetOutcome)
    ensures var nodes := LiveReadyNodes(entries);
            && r.reply.successes == |AckSet(c, self, nodes, w, link, AnyAnswer)|
            && (r.reply.WriteOk? <==> r.reply.successes >= ComputeQuorums(|nodes|).w)
            && r.reply.successes <= |nodes|
            && r.cluster.Keys == c.Keys
            // every live ready node the request reaches applies the put
            && (forall a :: a in nodes && a in c ==> r.cluster[a] == Delivered(c, self, a, w, link))
            && (forall b :: b in c && b !in nodes ==> r.cluster[b] == c[b])
  {
    SetCoordinated(c, self, entries, clientId, salt, w, link, AnyAnswer)
  }

  /** `coordinator_set` with acknowledgements counted only when a store accepted the
      write: an "ok" then means that at least W live ready nodes hold the write's request id. */
  function CoordinatorSetAccepted(c: Cluster, self: Addr, entries: seq<Entry>, clientId: string, salt: int,
                                  w: Write, link: Addr -> Link): (r: SetOutcome)
    ensures var nodes := LiveReadyNodes(entries);
            && r.reply.successes == |AckSet(c, self, nodes, w, link, AcceptedOnly)|
            && (r.reply.WriteOk? <==> r.reply.successes >= ComputeQuorums(|nodes|).w)
            && (r.reply.WriteOk? ==> |Holders(r.cluster, nodes, w.key, w.requestId)| >= ComputeQuorums(|nodes|).w)
  {
    var nodes := LiveReadyNodes(entries);
    var q := ComputeQuorums(|nodes|);
    var chosen := ChooseNodes(clientId, salt, q.n, nodes);
    AcceptedAcksAreHolders(c, self, chosen, w, link);
    var r := SetCoordinated(c, self, entries, clientId, salt, w, link, AcceptedOnly);
    assert Holders(r.cluster, chosen, w.key, w.requestId) == Holders(r.cluster, nodes, w.key, w.requestId);
    r
  }

  /** The write loop as written acknowledges a write that no node stored: the only live
      node holds a newer row for the key, ignores the older write, and still answers 200.
      With acceptance counted, the same write is reported as failed. */
  lemma StaleRemoteAckCounted()
    ensures var c: Cluster := map["self" := map[], "peer" := map["k" := Record("new", 10, "r1")]];
            var w := Write("k", "old", 5, "r2");
            var entries := [Entry("peer", "ready")];
            var asWritten := CoordinatorSet(c, "self", entries, "", 0, w, _ => Answers);
            var corrected := CoordinatorSetAccepted(c, "self", entries, "", 0, w, _ => Answers);
            && asWritten.reply == WriteOk(1)
            && Holders(asWritten.cluster, LiveReadyNodes(entries), "k", "r2") == {}
            && corrected.reply == WriteFailed(0)
  {
    var c: Cluster := map["self" := map[], "peer" := map["k" := Record("new", 10, "r1")]];
    var w := Write("k", "old", 5, "r2");
    var entries := [Entry("peer", "ready")];
    assert ReadyAddrs(entries) == ["peer"];
    assert SortedSet(["peer"]) == ["peer"];
    var nodes := LiveReadyNodes(entries);
    assert nodes == ["peer"];
    assert ComputeQuorums(1).w == 1;
    var chosen := ChooseNodes("", 0, 1, nodes);
    assert chosen == ["peer"];
    assert Put(c["peer"], w) == PutResult(c["peer"], false);
    assert WriteFanout(c, "self", chosen, w, _ => Answers, AnyAnswer) == Fanout(c, 1);
    assert WriteFanout(c, "self", chosen, w, _ => Answers, AcceptedOnly) == Fanout(c, 0);
  }

  // ---------------------------------------------------------------- reads

  /** The read loop: the rows returned by the reached chosen nodes, in chosen order. */
  function ReadFanout(c: Cluster, self: Addr, chosen: seq<Addr>, key: Key, link: Addr -> Link): (rs: seq<Record>)
    ensures |rs| <= |chosen|
    ensures forall x :: x in rs ==> exists a :: a in chosen && Reached(c, self, a, link) && key in c[a] && c[a][key] == x
    decreases |chosen|
  {
    if |chosen| == 0 then []
    else
      var a := chosen[0];
      var rest := ReadFanout(c, self, chosen[1..], key, link);
      assert forall b :: b in chosen[1..] ==> b in chosen;
      if Reached(c, self, a, link) && key in c[a] then [c[a][key]] + rest else rest
  }

  /** The read loop collects rows in chosen order: reading a list in two parts gives the
      rows of the first part followed by those of the second, which fixes which of two
      rows with equal timestamps `max` returns. */
  lemma {:induction false} ReadFanoutAppend(c: Cluster, self: Addr, xs: seq<Addr>, ys: seq<Addr>, key: Key, link: Addr -> Link)
    ensures ReadFanout(c, self, xs + ys, key, link) == ReadFanout(c, self, xs, key, link) + ReadFanout(c, self, ys, key, link)
    decreases |xs|
  {
    if |xs| > 0 {
      assert (xs + ys)[1..] == xs[1..] + ys;
      ReadFanoutAppend(c, self, xs[1..], ys, key, link);
    } else {
      assert xs + ys == ys;
    }
  }

  /** A single chosen node contributes its row exactly when it is reached and holds the key. */
  lemma ReadFanoutSingle(c: Cluster, self: Addr, a: Addr, key: Key, link: Addr -> Link)
    ensures ReadFanout(c, self, [a], key, link) == if Reached(c, self, a, link) && key in c[a] then [c[a][key]] else []
  {
    assert [a][1..] == [];
  }

  /** Every reached chosen node that holds the key contributes its row. */
  lemma {:induction false} ReadFanoutIncludes(c: Cluster, self: Addr, chosen: seq<Addr>, key: Key, link: Addr -> Link, a: Addr)
    requires a in chosen && Reached(c, self, a, link) && key in c[a]
    ensures c[a][key] in ReadFanout(c, self, chosen, key, link)
    decreases |chosen|
  {
    if chosen[0] != a {
      assert a in chosen[1..] by {
        assert chosen == [chosen[0]] + chosen[1..];
      }
      ReadFanoutIncludes(c, self, chosen[1..], key, link, a);
    }
  }

  datatype ReadReply = NotFound | Found(value: Value, ts: int)

  /** Where a collected row comes from: the k-th row is the row of a reached holder
      `chosen[i]`, and the rows collected before it are exactly those of `chosen[..i]`. */
  lemma {:induction false} ReadFanoutOrigin(c: Cluster, self: Addr, chosen: seq<Addr>, key: Key, link: Addr -> Link, k: nat)
    requires k < |ReadFanout(c, self, chosen, key, link)|
    ensures exists i :: 0 <= i < |chosen| && Reached(c, self, chosen[i], link) && key in c[chosen[i]]
                        && ReadFanout(c, self, chosen, key, link)[k] == c[chosen[i]][key]
                        && ReadFanout(c, self, chosen[..i], key, link) == ReadFanout(c, self, chosen, key, link)[..k]
    decreases |chosen|
  {
    var rs := ReadFanout(c, self, chosen, key, link);
    var a := chosen[0];
    var tail := chosen[1..];
    var rest := ReadFanout(c, self, tail, key, link);
    var here := Reached(c, self, a, link) && key in c[a];
    if here && k == 0 {
      assert chosen[..0] == [];
      assert ReadFanout(c, self, chosen[..0], key, link) == rs[..0];
    } else {
      var k' := if here then k - 1 else k;
      ReadFanoutOrigin(c, self, tail, key, link, k');
      var i' :| 0 <= i' < |tail| && Reached(c, self, tail[i'], link) && key in c[tail[i']]
                && rest[k'] == c[tail[i']][key]
                && ReadFanout(c, self, tail[..i'], key, link) == rest[..k'];
      var i := i' + 1;
      assert chosen[..i] == [a] + tail[..i'];
      ReadFanoutAppend(c, self, [a], tail[..i'], key, link);
      ReadFanoutSingle(c, self, a, key, link);
      if here {
        assert rs == [c[a][key]] + rest;
        assert rs[..k] == [c[a][key]] + rest[..k'];
      } else {
        assert rs == rest;
      }
      assert chosen[i] == tail[i'];
    }
  }

  /** `max` over the rows in chosen order: a found reply is the row of the first reached
      holder in `chosen` whose timestamp is the largest; every reached holder before it
      has a strictly smaller timestamp. */
  lemma LatestInChosenOrder(c: Cluster, self: Addr, chosen: seq<Addr>, key: Key, link: Addr -> Link)
    ensures var reply := Latest(ReadFanout(c, self, chosen, key, link));
            reply.Found? ==>
              exists i :: 0 <= i < |chosen| && Reached(c, self, chosen[i], link) && key in c[chosen[i]]
                          && reply == Found(c[chosen[i]][key].value, c[chosen[i]][key].ts)
                          && forall j :: 0 <= j < i && Reached(c, self, chosen[j], link) && key in c[chosen[j]] ==>
                                           c[chosen[j]][key].ts < reply.ts
  {
    var rs := ReadFanout(c, self, chosen, key, link);
    if |rs| > 0 {
      var k := FirstMax(rs);
      assert Latest(rs) == Found(rs[k].value, rs[k].ts);
      ReadFanoutOrigin(c, self, chosen, key, link, k);
      var i :| 0 <= i < |chosen| && Reached(c, self, chosen[i], link) && key in c[chosen[i]]
               && rs[k] == c[chosen[i]][key]
               && ReadFanout(c, self, chosen[..i], key, link) == rs[..k];
      forall j | 0 <= j < i && Reached(c, self, chosen[j], link) && key in c[chosen[j]]
        ensures c[chosen[j]][key].ts < rs[k].ts
      {
        assert chosen[..i][j] == chosen[j];
        ReadFanoutIncludes(c, self, chosen[..i], key, link, chosen[j]);
        var m :| 0 <= m < k && rs[..k][m] == c[chosen[j]][key];
        assert rs[m] == c[chosen[j]][key];
      }
    }
  }


  /** The position `max(rs, key=lambda x: x["ts"])` picks: the first row with the largest
      timestamp. It scans left to right and moves only on a strictly larger timestamp. */
  function FirstMax(rs: seq<Record>): (i: nat)
    requires |rs| > 0
    ensures i < |rs|
    ensures forall j :: 0 <= j < |rs| ==> rs[j].ts <= rs[i].ts
    ensures forall j :: 0 <= j < i ==> rs[j].ts < rs[i].ts
    decreases |rs|
  {
    if |rs| == 1 then 0
    else
      var best := FirstMax(rs[..|rs| - 1]);
      assert forall j :: 0 <= j < |rs| - 1 ==> rs[..|rs| - 1][j] == rs[j];
      if rs[|rs| - 1].ts > rs[best].ts then |rs| - 1 else best
  }

  /** The reply built from the collected rows: not found when there are none, otherwise
      the value and timestamp of the first row with the largest timestamp. */
  function Latest(rs: seq<Record>): (reply: ReadReply)
    ensures reply.NotFound? <==> |rs| == 0
    ensures reply.Found? ==> forall j :: 0 <= j < |rs| ==> rs[j].ts <= reply.ts
    ensures reply.Found? ==> exists i :: 0 <= i < |rs| && reply == Found(rs[i].value, rs[i].ts)
                                       && forall j :: 0 <= j < i ==> rs[j].ts < reply.ts
  {
    if |rs| == 0 then NotFound
    else
      var i := FirstMax(rs);
      Found(rs[i].value, rs[i].ts)
  }

  /** What the read loop sees: every reached live node that holds the key contributes its
      row, and every collected row is such a node's row. */
  lemma ReadCollectsReachedRows(c: Cluster, self: Addr, nodes: seq<Addr>, chosen: seq<Addr>, key: Key, link: Addr -> Link)
    requires forall a :: a in chosen <==> a in nodes
    ensures var rs := ReadFanout(c, self, chosen, key, link);
            && (forall a :: a in nodes && Reached(c, self, a, link) && key in c[a] ==> c[a][key] in rs)
            && (forall x :: x in rs ==> exists a :: a in nodes && Reached(c, self, a, link) && key in c[a] && c[a][key] == x)
  {
    forall a | a in nodes && Reached(c, self, a, link) && key in c[a]
      ensures c[a][key] in ReadFanout(c, self, chosen, key, link)
    {
      ReadFanoutIncludes(c, self, chosen, key, link, a);
    }
  }

  /** `coordinator_get`: not found exactly when no reached live node holds the key;
      otherwise the value and timestamp of a reached node's row whose timestamp is the
      largest among all reached nodes' rows. */
  function CoordinatorGet(c: Cluster, self: Addr, entries: seq<Entry>, clientId: string, salt: int,
                          key: Key, link: Addr -> Link): (reply: ReadReply)
    ensures reply.NotFound? <==>
              forall a :: a in LiveReadyNodes(entries) && Reached(c, self, a, link) ==> key !in c[a]
    ensures reply.Found? ==>
              forall a :: a in LiveReadyNodes(entries) && Reached(c, self, a, link) && key in c[a] ==> c[a][key].ts <= reply.ts
    ensures reply.Found? ==>
              exists a :: a in LiveReadyNodes(entries) && Reached(c, self, a, link) && key in c[a]
                          && c[a][key].value == reply.value && c[a][key].ts == reply.ts
    // ties go to the first reached holder in the order the nodes were chosen
    ensures var nodes := LiveReadyNodes(entries);
            var chosen := ChooseNodes(clientId, salt, |nodes|, nodes);
            reply.Found? ==>
              exists i :: 0 <= i < |chosen| && Reached(c, self, chosen[i], link) && key in c[chosen[i]]
                          && reply == Found(c[chosen[i]][key].value, c[chosen[i]][key].ts)
                          && forall j :: 0 <= j < i && Reached(c, self, chosen[j], link) && key in c[chosen[j]] ==>
                                           c[chosen[j]][key].ts < reply.ts
  {
    var nodes := LiveReadyNodes(entries);
    var q := ComputeQuorums(|nodes|);
    var chosen := ChooseNodes(clientId, salt, q.n, nodes);
    var results := ReadFanout(c, self, chosen, key, link);
    ReadCollectsReachedRows(c, self, nodes, chosen, key, link);
    LatestInChosenOrder(c, self, chosen, key, link);
    assert forall i :: 0 <= i < |results| ==> results[i] in results;
    Latest(results)
  }

  /** The nodes of a list that the coordinator hears back from. */
  function Answering(c: Cluster, self: Addr, nodes: seq<Addr>, link: Addr -> Link): set<Addr>
  {
    set a | a in nodes && Reached(c, self, a, link)
  }

  function Members(nodes: seq<Addr>): set<Addr>
  {
    set a | a in nodes
  }

  lemma {:induction false} DistinctMembersCard(nodes: seq<Addr>)
    requires Distinct(nodes)
    ensures |Members(nodes)| == |nodes|
    decreases |nodes|
  {
    if |nodes| > 0 {
      var tail := nodes[1..];
      DistinctTail(nodes);
      DistinctMembersCard(tail);
      assert nodes == [nodes[0]] + tail;
      assert Members(nodes) == Members(tail) + {nodes[0]};
    }
  }

  /** Read after write under the quorum sizes: if at least W live nodes hold rows for the
      key with timestamp at least t, and at least R live nodes answer the read, the read
      finds the key and returns a timestamp of at least t. */
  lemma QuorumReadAfterWrite(c: Cluster, self: Addr, entries: seq<Entry>, clientId: string, salt: int,
                             key: Key, link: Addr -> Link, acked: set<Addr>, t: int)
    requires acked <= Members(LiveReadyNodes(entries))
    requires |acked| >= ComputeQuorums(|LiveReadyNodes(entries)|).w
    requires forall a :: a in acked ==> a in c && key in c[a] && c[a][key].ts >= t
    requires |Answering(c, self, LiveReadyNodes(entries), link)| >= ComputeQuorums(|LiveReadyNodes(entries)|).r
    ensures var reply := CoordinatorGet(c, self, entries, clientId, salt, key, link);
            reply.Found? && reply.ts >= t
  {
    var nodes := LiveReadyNodes(entries);
    DistinctMembersCard(nodes);
    QuorumsIntersect(Members(nodes), acked, Answering(c, self, nodes, link));
    var a :| a in acked * Answering(c, self, nodes, link);
    assert a in nodes && Reached(c, self, a, link) && key in c[a];
  }
}

=== FILE: loadtest.dfy ===
/** The load-test driver's retry helper and its counters: `send_with_retries`,
    `Stats.record`, the overload check that follows each call, and `Progress.increment`.
    Times are integer milliseconds; `random.uniform(0, jitter)` is a draw in [0, jitter]. */
module LoadTest {
  import opened Common

  /** `send_with_retries`'s defaults: three retries, 0.05 s base delay, 0.05 s jitter. */
  const DefaultMaxRetries: nat := 3
  const DefaultBaseDelayMs: nat := 50
  const DefaultJitterMs: nat := 50

  datatype Response = Response(status: int)

  /** One call of `request_func`: it returns (possibly `None`) after some latency, or raises. */
  datatype Attempt = Returned(resp: Option<Response>, latency: int) | Raised(latency: int)

  /** An attempt succeeds when it returned a response whose status is not 503;
      any other status, 404 and 500 included, is a success. */
  predicate Succeeds(a: Attempt)
  {
    a.Returned? && a.resp.Some? && a.resp.value.status != 503
  }

  datatype Stats = Stats(success: nat, failure: nat, latencies: seq<int>, retries: seq<int>, overloads: nat)

  /** Every recorded request has exactly one latency and one retry count. */
  predicate Balanced(s: Stats)
  {
    s.success + s.failure == |s.latencies| == |s.retries|
  }

  /** `Stats.record`. */
  function Record(s: Stats, success: bool, latency: int, retries: int): (r: Stats)
    ensures r.success + r.failure == s.success + s.failure + 1
    ensures success ==> r.success == s.success + 1 && r.failure == s.failure
    ensures !success ==> r.failure == s.failure + 1 && r.success == s.success
    ensures r.latencies == s.latencies + [latency] && r.retries == s.retries + [retries]
    ensures r.overloads == s.overloads
    ensures Balanced(s) ==> Balanced(r)
  {
    if success then Stats(s.success + 1, s.failure, s.latencies + [latency], s.retries + [retries], s.overloads)
    else Stats(s.success, s.failure + 1, s.latencies + [latency], s.retries + [retries], s.overloads)
  }

  /** One call to record. */
  datatype Observation = Observation(success: bool, latency: int, retries: int)

  function RecordAll(s: Stats, xs: seq<Observation>): Stats
    decreases |xs|
  {
    if |xs| == 0 then s else RecordAll(Record(s, xs[0].success, xs[0].latency, xs[0].retries), xs[1..])
  }

  function CountSuccesses(xs: seq<Observation>): (n: nat)
    ensures n <= |xs|
    decreases |xs|
  {
    if |xs| == 0 then 0 else (if xs[0].success then 1 else 0) + CountSuccesses(xs[1..])
  }

  /** After any sequence of records the counters stay balanced, the successes grow by the
      number of successful samples and the failures by the rest. */
  lemma {:induction false} RecordAllCounts(s: Stats, xs: seq<Observation>)
    requires Balanced(s)
    ensures Balanced(RecordAll(s, xs))
    ensures RecordAll(s, xs).success == s.success + CountSuccesses(xs)
    ensures RecordAll(s, xs).failure == s.failure + (|xs| - CountSuccesses(xs))
    decreases |xs|
  {
    if |xs| > 0 {
      RecordAllCounts(Record(s, xs[0].success, xs[0].latency, xs[0].retries), xs[1..]);
    }
  }

  /** Recording requests never touches the overload count. */
  lemma {:induction false} RecordAllKeepsOverloads(s: Stats, xs: seq<Observation>)
    ensures RecordAll(s, xs).overloads == s.overloads
    decreases |xs|
  {
    if |xs| > 0 {
      RecordAllKeepsOverloads(Record(s, xs[0].success, xs[0].latency, xs[0].retries), xs[1..]);
    }
  }

  /** The delay after attempt n: base * 2^n plus the jitter drawn for it. */
  function Delay(n: nat, baseDelay: nat, u: nat): nat
  {
    baseDelay * Pow2(n) + u
  }

  /** The deterministic part of the delay strictly grows with the attempt number when
      the base is positive. */
  lemma DelayBaseIncreasing(m: nat, n: nat, baseDelay: nat)
    requires m < n && baseDelay > 0
    ensures Delay(m, baseDelay, 0) < Delay(n, baseDelay, 0)
  {
    Pow2StrictlyIncreasing(m, n);
    assert baseDelay * Pow2(m) < baseDelay * Pow2(n) by {
      StrictMultiply(baseDelay, Pow2(m), Pow2(n));
    }
  }

  lemma StrictMultiply(a: nat, x: nat, y: nat)
    requires a > 0 && x < y
    ensures a * x < a * y
  {
  }

  /** The result of one `send_with_retries` call: what it returns, how many times it called
      `request_func`, the delays it slept, and the statistics afterwards. */
  datatype RetryRun = RetryRun(result: Option<Response>, calls: nat, delays: seq<nat>, stats: Option<Stats>)

  /** `send_with_retries(request_func, max_retries, base_delay, jitter, stats)`.
      `attempts(i)` is what the i-th call of `request_func` does and `jitterDraws(i)` the
      jitter of the i-th delay. */
  method SendWithRetries(attempts: nat -> Attempt, maxRetries: nat, baseDelay: nat, jitter: nat,
                         jitterDraws: nat -> nat, stats: Option<Stats>) returns (run: RetryRun)
    requires forall i :: jitterDraws(i) <= jitter
    ensures 1 <= run.calls <= maxRetries + 1
    // every call but possibly the last failed, and a delay followed each failed call
    ensures forall i :: 0 <= i < run.calls - 1 ==> !Succeeds(attempts(i))
    ensures forall i :: 0 <= i < |run.delays| ==> run.delays[i] == Delay(i, baseDelay, jitterDraws(i))
    ensures forall i :: 0 <= i < |run.delays| ==>
              baseDelay * Pow2(i) <= run.delays[i] <= baseDelay * Pow2(i) + jitter
    // a response is returned exactly when the last call succeeded, and it is that response
    ensures run.result.Some? <==> Succeeds(attempts(run.calls - 1))
    ensures run.result.Some? ==> run.result == attempts(run.calls - 1).resp && |run.delays| == run.calls - 1
    // so a 503 is never handed back to the caller
    ensures run.result.Some? ==> run.result.value.status != 503
    ensures run.result.None? ==> run.calls == maxRetries + 1 && |run.delays| == run.calls
    // statistics: one record per call of send_with_retries, when statistics are kept
    ensures run.stats.Some? <==> stats.Some?
    ensures stats.Some? && run.result.Some? ==>
              run.stats.value == Record(stats.value, true, attempts(run.calls - 1).latency, run.calls - 1)
    ensures stats.Some? && run.result.None? ==>
              run.stats.value == Record(stats.value, false, attempts(maxRetries).latency, maxRetries + 1)
  {
    var delays: seq<nat> := [];
    var attempt: nat := 0;
    var latency := 0;
    while attempt <= maxRetries
      invariant attempt <= maxRetries + 1
      invariant forall i :: 0 <= i < attempt ==> !Succeeds(attempts(i))
      invariant |delays| == attempt
      invariant forall i :: 0 <= i < attempt ==> delays[i] == Delay(i, baseDelay, jitterDraws(i))
      invariant attempt > 0 ==> latency == attempts(attempt - 1).latency
    {
      var a := attempts(attempt);
      latency := a.latency;
      if Succeeds(a) {
        var after := if stats.Some? then Some(Record(stats.value, true, latency, attempt)) else None;
        return RetryRun(a.resp, attempt + 1, delays, after);
      }
      delays := delays + [Delay(attempt, baseDelay, jitterDraws(attempt))];
      attempt := attempt + 1;
    }
    var after := if stats.Some? then Some(Record(stats.value, false, latency, attempt)) else None;
    return RetryRun(None, attempt, delays, after);
  }

  /** `stats.record_overload()`. */
  function RecordOverload(s: Stats): (r: Stats)
    ensures r.overloads == s.overloads + 1
    ensures r.success == s.success && r.failure == s.failure
    ensures r.latencies == s.latencies && r.retries == s.retries
  {
    s.(overloads := s.overloads + 1)
  }

  /** The check `client_task` makes after each call: a returned 503 counts as an overload. */
  function CheckOverload(s: Stats, result: Option<Response>): (r: Stats)
    ensures result.Some? && result.value.status == 503 ==> r.overloads == s.overloads + 1
    ensures !(result.Some? && result.value.status == 503) ==> r == s
    ensures r.success == s.success && r.failure == s.failure
    ensures r.latencies == s.latencies && r.retries == s.retries
  {
    if result.Some? && result.value.status == 503 then RecordOverload(s) else s
  }

  /** One request of `client_task`: send with the default retry settings, then check for an
      overload. The check never fires, because a 503 is never returned. */
  method SendAndCheck(attempts: nat -> Attempt, jitterDraws: nat -> nat, stats: Stats) returns (after: Stats)
    requires forall i :: jitterDraws(i) <= DefaultJitterMs
    ensures after.overloads == stats.overloads
    ensures after.success + after.failure == stats.success + stats.failure + 1
    ensures Balanced(stats) ==> Balanced(after)
  {
    var run := SendWithRetries(attempts, DefaultMaxRetries, DefaultBaseDelayMs, DefaultJitterMs, jitterDraws, Some(stats));
    after := CheckOverload(run.stats.value, run.result);
  }

  datatype Progress = Progress(completed: nat, total: nat)

  /** `Progress.increment`. */
  function Increment(p: Progress): (r: Progress)
    ensures r.completed == p.completed + 1 && r.total == p.total
  {
    p.(completed := p.completed + 1)
  }

  /** One iteration of `client_task`: a set and then a get, each sent with the default
      retry settings, checked for an overload and followed by one progress increment. */
  method ClientTaskIteration(setAttempts: nat -> Attempt, setDraws: nat -> nat,
                             getAttempts: nat -> Attempt, getDraws: nat -> nat,
                             stats: Stats, progress: Progress) returns (stats': Stats, progress': Progress)
    requires forall i :: setDraws(i) <= DefaultJitterMs
    requires forall i :: getDraws(i) <= DefaultJitterMs
    ensures progress'.completed == progress.completed + 2 && progress'.total == progress.total
    ensures stats'.success + stats'.failure == stats.success + stats.failure + 2
    ensures stats'.overloads == stats.overloads
    ensures Balanced(stats) ==> Balanced(stats')
  {
    stats' := SendAndCheck(setAttempts, setDraws, stats);
    progress' := Increment(progress);
    stats' := SendAndCheck(getAttempts, getDraws, stats');
    progress' := Increment(progress');
  }

  /** `client_task` for one client: `requests` iterations. Iteration k's calls behave as
      `setAttempts(k)` and `getAttempts(k)`. Each iteration adds two to the progress,
      which is why the progress total counts two requests per iteration. */
  method ClientTask(requests: nat, setAttempts: nat -> nat -> Attempt, setDraws: nat -> nat -> nat,
                    getAttempts: nat -> nat -> Attempt, getDraws: nat -> nat -> nat,
                    stats: Stats, progress: Progress) returns (stats': Stats, progress': Progress)
    requires forall k, i :: setDraws(k)(i) <= DefaultJitterMs
    requires forall k, i :: getDraws(k)(i) <= DefaultJitterMs
    ensures progress'.completed == progress.completed + 2 * requests && progress'.total == progress.total
    ensures stats'.success + stats'.failure == stats.success + stats.failure + 2 * requests
    ensures stats'.overloads == stats.overloads
    ensures Balanced(stats) ==> Balanced(stats')
  {
    stats', progress' := stats, progress;
    var k := 0;
    while k < requests
      invariant 0 <= k <= requests
      invariant progress'.completed == progress.completed + 2 * k && progress'.total == progress.total
      invariant stats'.success + stats'.failure == stats.success + stats.failure + 2 * k
      invariant stats'.overloads == stats.overloads
      invariant Balanced(stats) ==> Balanced(stats')
    {
      stats', progress' := ClientTaskIteration(setAttempts(k), setDraws(k), getAttempts(k), getDraws(k), stats', progress');
      k := k + 1;
    }
  }
}

=== FILE: membership.dfy ===
/** The node's membership list: `sorted(set(ready addresses))`. Python orders strings
    lexicographically by code point; `Below` is that order, proved a strict total order,
    and the list is the unique strictly increasing sequence of the ready addresses. */
module Membership {
  import opened Common
  import opened Registry

  /** Python's `a < b` on strings: the first differing character decides, and a proper
      prefix comes first. */
  predicate Below(a: string, b: string)
    // a proper prefix is smaller, and no string is smaller than one of its prefixes
    ensures |a| < |b| && a == b[..|a|] ==> Below(a, b)
    ensures |b| <= |a| && b == a[..|b|] ==> !Below(a, b)
    // at the first difference, the smaller character makes the smaller string
    ensures forall i :: 0 <= i < |a| && i < |b| && a[..i] == b[..i] && a[i] != b[i] ==> (Below(a, b) <==> a[i] < b[i])
    decreases |a|
  {
    if |a| == 0 then |b| > 0
    else if |b| == 0 then false
    else if a[0] != b[0] then
      assert forall i :: 0 < i < |a| && i < |b| ==> a[..i][0] == a[0] && b[..i][0] == b[0];
      a[0] < b[0]
    else
      assert |a| <= |b| ==> b[..|a|][1..] == b[1..][..|a| - 1];
      assert |b| <= |a| ==> a[..|b|][1..] == a[1..][..|b| - 1];
      assert forall i :: 0 < i <= |a| && i <= |b| && a[..i] == b[..i] ==> a[1..][..i - 1] == b[1..][..i - 1];
      assert forall i :: 0 < i < |a| ==> a[1..][i - 1] == a[i];
      assert forall i :: 0 < i < |b| ==> b[1..][i - 1] == b[i];
      Below(a[1..], b[1..])
  }

  lemma {:induction false} BelowIrreflexive(a: string)
    ensures !Below(a, a)
    decreases |a|
  {
    if |a| > 0 {
      BelowIrreflexive(a[1..]);
    }
  }

  lemma {:induction false} BelowAsymmetric(a: string, b: string)
    requires Below(a, b)
    ensures !Below(b, a)
    decreases |a|
  {
    if |a| > 0 && |b| > 0 && a[0] == b[0] {
      BelowAsymmetric(a[1..], b[1..]);
    }
  }

  lemma {:induction false} BelowTransitive(a: string, b: string, c: string)
    requires Below(a, b) && Below(b, c)
    ensures Below(a, c)
    decreases |a|
  {
    if |a| > 0 && a[0] == b[0] && b[0] == c[0] {
      BelowTransitive(a[1..], b[1..], c[1..]);
    }
  }

  lemma {:induction false} BelowTotal(a: string, b: string)
    requires a != b
    ensures Below(a, b) || Below(b, a)
    decreases |a|
  {
    if |a| > 0 && |b| > 0 && a[0] == b[0] {
      assert a == [a[0]] + a[1..] && b == [b[0]] + b[1..];
      BelowTotal(a[1..], b[1..]);
    }
  }

  predicate StrictlySorted(xs: seq<string>)
  {
    forall i, j :: 0 <= i < j < |xs| ==> Below(xs[i], xs[j])
  }

  lemma StrictlySortedIsDistinct(xs: seq<string>)
    requires StrictlySorted(xs)
    ensures Distinct(xs)
  {
    forall i, j | 0 <= i < j < |xs|
      ensures xs[i] != xs[j]
    {
      if xs[i] == xs[j] {
        BelowIrreflexive(xs[i]);
      }
    }
  }

  /** Inserts x into a strictly increasing list, keeping it strictly increasing. */
  function Insert(xs: seq<string>, x: string): (r: seq<string>)
    requires StrictlySorted(xs)
    ensures StrictlySorted(r)
    ensures forall y :: y in r <==> y in xs || y == x
  {
    if |xs| == 0 then [x]
    else if x == xs[0] then xs
    else if Below(x, xs[0]) then
      assert forall j :: 0 < j < |xs| ==> Below(x, xs[j]) by {
        forall j | 0 < j < |xs| ensures Below(x, xs[j]) {
          BelowTransitive(x, xs[0], xs[j]);
        }
      }
      [x] + xs
    else
      BelowTotal(x, xs[0]);
      var rest := Insert(xs[1..], x);
      assert forall y :: y in rest ==> Below(xs[0], y) by {
        forall y | y in rest ensures Below(xs[0], y) {
          if y != x {
            var j :| 0 <= j < |xs[1..]| && xs[1..][j] == y;
            assert xs[j + 1] == y;
          }
        }
      }
      assert forall y :: y in xs <==> y == xs[0] || y in xs[1..] by {
        assert xs == [xs[0]] + xs[1..];
      }
      [xs[0]] + rest
  }

  /** `sorted(set(xs))`: the strictly increasing list of the distinct elements of xs. */
  function SortedSet(xs: seq<string>): (r: seq<string>)
    ensures StrictlySorted(r)
    ensures forall y :: y in r <==> y in xs
  {
    if |xs| == 0 then []
    else
      assert forall y :: y in xs <==> y == xs[0] || y in xs[1..] by {
        assert xs == [xs[0]] + xs[1..];
      }
      Insert(SortedSet(xs[1..]), xs[0])
  }

  lemma HeadIsMember(xs: seq<string>)
    ensures |xs| > 0 ==> xs[0] in xs
  {
  }

  /** Two strictly increasing lists with the same elements are the same list, so
      SortedSet is the only possible answer of `sorted(set(...))`. */
  lemma {:induction false} SortedListUnique(xs: seq<string>, ys: seq<string>)
    requires StrictlySorted(xs) && StrictlySorted(ys)
    requires forall y :: y in xs <==> y in ys
    ensures xs == ys
    decreases |xs|
  {
    if |xs| == 0 || |ys| == 0 {
      HeadIsMember(xs);
      HeadIsMember(ys);
    } else {
      assert xs[0] in ys;
      assert ys[0] in xs;
      if xs[0] != ys[0] {
        var i :| 0 <= i < |xs| && xs[i] == ys[0];
        var j :| 0 <= j < |ys| && ys[j] == xs[0];
        assert Below(xs[0], ys[0]);
        assert Below(ys[0], xs[0]);
        BelowAsymmetric(xs[0], ys[0]);
      }
      forall y | y in xs[1..]
        ensures y in ys[1..]
      {
        var i :| 0 <= i < |xs[1..]| && xs[1..][i] == y;
        assert Below(xs[0], xs[i + 1]);
        BelowIrreflexive(y);
        assert y in ys;
        var j :| 0 <= j < |ys| && ys[j] == y;
        assert j != 0;
        assert ys[1..][j - 1] == y;
      }
      forall y | y in ys[1..]
        ensures y in xs[1..]
      {
        var j :| 0 <= j < |ys[1..]| && ys[1..][j] == y;
        assert Below(ys[0], ys[j + 1]);
        BelowIrreflexive(y);
        assert y in xs;
        var i :| 0 <= i < |xs| && xs[i] == y;
        assert i != 0;
        assert xs[1..][i - 1] == y;
      }
      SortedListUnique(xs[1..], ys[1..]);
      assert xs == [xs[0]] + xs[1..];
      assert ys == [ys[0]] + ys[1..];
    }
  }

  /** The node's `get_live_ready_nodes`: ready addresses, sorted, without duplicates. */
  function LiveReadyNodes(entries: seq<Entry>): (r: seq<Addr>)
    ensures StrictlySorted(r)
    ensures Distinct(r)
    ensures forall a :: a in r <==> exists i :: 0 <= i < |entries| && IsReady(entries[i]) && entries[i].addr == a
  {
    var r := SortedSet(ReadyAddrs(entries));
    StrictlySortedIsDistinct(r);
    r
  }

  /** The membership list does not depend on the order in which the registry lists its keys
      or on repeated addresses: it is the one sorted list of the ready addresses. */
  lemma LiveReadyNodesCanonical(entries: seq<Entry>, ys: seq<Addr>)
    requires StrictlySorted(ys)
    requires forall a :: a in ys <==> exists i :: 0 <= i < |entries| && IsReady(entries[i]) && entries[i].addr == a
    ensures LiveReadyNodes(entries) == ys
  {
    SortedListUnique(LiveReadyNodes(entries), ys);
  }
}

=== FILE: overload.dfy ===
/** `with_overload_protection`: the node's in-flight counter and load shedding. The lock
    makes every counter update atomic, so the counter is modelled as a sequence of
    atomic steps: a request arrives (admitted or shed) or an admitted request finishes. */
module Overload {
  import opened Common

  /** The default `MAX_IN_FLIGHT`; the environment may set any integer. */
  const DefaultMaxInFlight: int := 32

  /** What the wrapper answers: 503 "overloaded" without running the handler, or the handler's reply. */
  datatype Guarded<+R> = Shed | Ran(reply: R)

  datatype Wrapped<+R> = Wrapped(answer: Guarded<R>, inFlightAfter: nat)

  /** One request through the wrapper, given the counter when it arrives. The handler is
      passed the counter value it runs under. */
  function WithOverloadProtection<R>(inFlight: nat, limit: int, handler: nat -> R): (r: Wrapped<R>)
    // shed exactly when the counter is at or above the limit
    ensures r.answer.Shed? <==> inFlight >= limit
    // an admitted handler runs with the counter raised by one, which stays within the limit
    ensures r.answer.Ran? ==> r.answer.reply == handler(inFlight + 1) && inFlight + 1 <= limit
    // either way the counter is back where it was
    ensures r.inFlightAfter == inFlight
  {
    if inFlight >= limit then Wrapped(Shed, inFlight)
    else
      // the `finally` block undoes the increment made on admission
      Wrapped(Ran(handler(inFlight + 1)), inFlight)
  }

  datatype Event = Arrive | Finish

  /** One atomic step on the counter; None when a request finishes with nothing in
      flight, which cannot happen because every finish follows its own admission. */
  function Step(inFlight: nat, limit: int, e: Event): (r: Option<nat>)
    ensures e == Arrive ==> r.Some? && (inFlight >= limit ==> r.value == inFlight)
    ensures e == Arrive && inFlight < limit ==> r == Some(inFlight + 1)
    ensures e == Finish ==> (r.Some? <==> inFlight > 0)
    ensures e == Finish && inFlight > 0 ==> r == Some(inFlight - 1)
    ensures r.Some? && r.value > inFlight ==> r.value <= limit
  {
    match e
    case Arrive => if inFlight >= limit then Some(inFlight) else Some(inFlight + 1)
    case Finish => if inFlight > 0 then Some(inFlight - 1) else None
  }

  /** The counter after a trace of steps, or None if the trace is impossible. */
  function Run(inFlight: nat, limit: int, trace: seq<Event>): Option<nat>
    decreases |trace|
  {
    if |trace| == 0 then Some(inFlight)
    else
      match Step(inFlight, limit, trace[0])
      case None => None
      case Some(c) => Run(c, limit, trace[1..])
  }

  /** A node with the default limit never has more than 32 requests in flight. */
  lemma DefaultLimitBound(trace: seq<Event>)
    ensures Run(0, DefaultMaxInFlight, trace).Some? ==> Run(0, DefaultMaxInFlight, trace).value <= 32
  {
    RunStaysWithinLimit(0, DefaultMaxInFlight, trace);
  }

  /** Starting within the limit (the counter starts at 0), every possible interleaving
      of arrivals and completions keeps the counter within the limit. */
  lemma {:induction false} RunStaysWithinLimit(inFlight: nat, limit: int, trace: seq<Event>)
    requires inFlight <= Max(limit, 0)
    ensures Run(inFlight, limit, trace).Some? ==> Run(inFlight, limit, trace).value <= Max(limit, 0)
    decreases |trace|
  {
    if |trace| > 0 {
      var next := Step(inFlight, limit, trace[0]);
      if next.Some? {
        RunStaysWithinLimit(next.value, limit, trace[1..]);
      }
    }
  }
}

=== FILE: quorum.dfy ===
/** `compute_quorums`: write and read quorum sizes from the number N of live ready nodes,
    W = max(ceil(N/2), 1) and R = max(N - W + 1, 1). */
module Quorum {
  import opened Common

  datatype Quorums = Quorums(n: nat, w: nat, r: nat)

  /** `math.ceil(N / 2)` for a non-negative N. */
  function CeilHalf(n: nat): (h: nat)
    ensures 2 * h >= n && 2 * h <= n + 1
  {
    (n + 1) / 2
  }

  function ComputeQuorums(n: nat): (q: Quorums)
    ensures q.n == n
    // every read quorum meets every write quorum
    ensures q.w + q.r > n
    ensures n >= 1 ==> 1 <= q.w <= n && 1 <= q.r <= n && q.w + q.r == n + 1
    ensures n == 0 ==> q.w == 1 && q.r == 1
    // the write quorum is half the nodes, rounded up
    ensures n >= 1 ==> 2 * q.w >= n && 2 * q.w <= n + 1
  {
    var w := Max(CeilHalf(n), 1);
    var r := Max(n - w + 1, 1);
    Quorums(n, w, r)
  }

  lemma SubsetCard<T>(a: set<T>, b: set<T>)
    requires a <= b
    ensures |a| <= |b|
  {
    assert b == a + (b - a);
  }

  /** Any set of at least W acknowledging nodes and any set of at least R answering nodes,
      both drawn from the same N live nodes, share a node. */
  lemma QuorumsIntersect<T>(live: set<T>, acked: set<T>, answered: set<T>)
    requires acked <= live && answered <= live
    requires |acked| >= ComputeQuorums(|live|).w
    requires |answered| >= ComputeQuorums(|live|).r
    ensures acked * answered != {}
  {
    var q := ComputeQuorums(|live|);
    if acked * answered == {} {
      assert |acked + answered| == |acked| + |answered|;
      SubsetCard(acked + answered, live);
      assert false;
    }
  }
}

=== FILE: registry.dfy ===
/** The membership directory as the node and the load balancer read it: one hash per
    registered node (`node:<id>`), holding the node's address and its state. */
module Registry {

  type Addr = string

  /** One `node:*` hash. `state` is whatever the node last wrote ("joining" or "ready");
      a hash that expired between listing and reading has no state, written here as "". */
  datatype Entry = Entry(addr: Addr, state: string)

  const ReadyState: string := "ready"

  predicate IsReady(e: Entry)
  {
    e.state == ReadyState
  }

  /** The addresses of the ready entries, in discovery order, duplicates kept. */
  function ReadyAddrs(entries: seq<Entry>): (r: seq<Addr>)
    ensures |r| <= |entries|
    ensures forall a :: a in r <==> exists i :: 0 <= i < |entries| && IsReady(entries[i]) && entries[i].addr == a
  {
    if |entries| == 0 then []
    else
      var rest := ReadyAddrs(entries[1..]);
      assert forall i :: 1 <= i < |entries| ==> entries[i] == entries[1..][i - 1];
      if IsReady(entries[0]) then [entries[0].addr] + rest else rest
  }

  /** Scanning a prefix and then the rest gives the whole scan: discovery order is kept. */
  lemma {:induction false} ReadyAddrsAppend(xs: seq<Entry>, ys: seq<Entry>)
    ensures ReadyAddrs(xs + ys) == ReadyAddrs(xs) + ReadyAddrs(ys)
  {
    if |xs| == 0 {
      assert xs + ys == ys;
    } else {
      assert (xs + ys)[1..] == xs[1..] + ys;
      ReadyAddrsAppend(xs[1..], ys);
    }
  }
}

=== FILE: sampling.dfy ===
/** `random.seed(hash(client_id)); random.sample(nodes, k)`.

    Python's string hash is salted per process and its Mersenne Twister is not
    modelled. What the callers rely on is its contract: the same seed and list give
    the same sample, the sample has `min(k, len(nodes))` elements, and they are drawn
    without replacement from the list. `Sample` is one concrete deterministic
    function with that contract (a linear congruential sequence picks the positions);
    nothing else about its choice is used anywhere in the model. */
module Sampling {
  import opened Common

  /** A string hash that depends on a per-process salt (Python's PYTHONHASHSEED). */
  function Hash(s: string, salt: int): int
  {
    if |s| == 0 then salt else Hash(s[..|s| - 1], salt) * 31 + s[|s| - 1] as int
  }

  function NextSeed(seed: int): int
  {
    (seed * 1103515245 + 12345) % 0x8000_0000
  }

  /** The position drawn from a list of length n. */
  function Pick(seed: int, n: nat): (i: nat)
    requires n > 0
    ensures i < n
  {
    seed % n
  }

  /** xs without its element at position i. */
  function Without<T>(xs: seq<T>, i: nat): (r: seq<T>)
    requires i < |xs|
    ensures |r| == |xs| - 1
  {
    xs[..i] + xs[i + 1..]
  }

  lemma RemoveAt<T>(xs: seq<T>, i: nat)
    requires i < |xs|
    ensures multiset(xs) == multiset(Without(xs, i)) + multiset{xs[i]}
  {
    assert xs == xs[..i] + [xs[i]] + xs[i + 1..];
  }

  /** Draws min(k, |xs|) elements of xs without replacement; the draw is fixed by the seed. */
  function Sample<T>(seed: int, xs: seq<T>, k: nat): (r: seq<T>)
    ensures |r| == Min(k, |xs|)
    ensures multiset(r) <= multiset(xs)
    decreases k
  {
    if k == 0 || |xs| == 0 then []
    else
      var i := Pick(seed, |xs|);
      RemoveAt(xs, i);
      [xs[i]] + Sample(NextSeed(seed), Without(xs, i), k - 1)
  }

  /** The generator's seed once `Sample(seed, xs, k)` has made its draws; the next
      `random.choice` draws from it. */
  function SampleState<T>(seed: int, xs: seq<T>, k: nat): int
    decreases k
  {
    if k == 0 || |xs| == 0 then seed
    else SampleState(NextSeed(seed), Without(xs, Pick(seed, |xs|)), k - 1)
  }

  /** Drawing at least as many as there are gives a reordering of the whole list. */
  lemma {:induction false} SampleAllIsPermutation<T>(seed: int, xs: seq<T>, k: nat)
    requires k >= |xs|
    ensures multiset(Sample(seed, xs, k)) == multiset(xs)
    decreases k
  {
    if k != 0 && |xs| != 0 {
      var i := Pick(seed, |xs|);
      RemoveAt(xs, i);
      SampleAllIsPermutation(NextSeed(seed), Without(xs, i), k - 1);
      assert Sample(seed, xs, k) == [xs[i]] + Sample(NextSeed(seed), Without(xs, i), k - 1);
    }
  }

  lemma MultisetMember<T>(a: T, xs: seq<T>, ys: seq<T>)
    requires multiset(xs) <= multiset(ys)
    requires a in xs
    ensures a in ys
  {
    assert a in multiset(xs);
  }

  lemma WithoutAt<T>(xs: seq<T>, i: nat, p: nat)
    requires i < |xs| && p < |xs| - 1
    ensures Without(xs, i)[p] == if p < i then xs[p] else xs[p + 1]
  {
  }

  /** Removing one element of a list without repeats leaves a list without repeats
      that no longer holds that element. */
  lemma WithoutDistinct<T>(xs: seq<T>, i: nat)
    requires i < |xs| && Distinct(xs)
    ensures Distinct(Without(xs, i))
    ensures xs[i] !in Without(xs, i)
  {
    var rest := Without(xs, i);
    forall p, q | 0 <= p < q < |rest|
      ensures rest[p] != rest[q]
    {
      WithoutAt(xs, i, p);
      WithoutAt(xs, i, q);
    }
    forall p | 0 <= p < |rest|
      ensures rest[p] != xs[i]
    {
      WithoutAt(xs, i, p);
    }
  }

  lemma DistinctCons<T>(a: T, xs: seq<T>)
    requires Distinct(xs) && a !in xs
    ensures Distinct([a] + xs)
  {
    var ys := [a] + xs;
    forall p, q | 0 <= p < q < |ys|
      ensures ys[p] != ys[q]
    {
      assert ys[q] == xs[q - 1];
      if p > 0 {
        assert ys[p] == xs[p - 1];
      }
    }
  }

  /** Drawing from a list without repeated elements gives a sample without repeated elements. */
  lemma {:induction false} SampleDistinct<T>(seed: int, xs: seq<T>, k: nat)
    requires Distinct(xs)
    ensures Distinct(Sample(seed, xs, k))
    decreases k
  {
    if k != 0 && |xs| != 0 {
      var i := Pick(seed, |xs|);
      var rest := Without(xs, i);
      WithoutDistinct(xs, i);
      SampleDistinct(NextSeed(seed), rest, k - 1);
      var tail := Sample(NextSeed(seed), rest, k - 1);
      if xs[i] in tail {
        MultisetMember(xs[i], tail, rest);
      }
      DistinctCons(xs[i], tail);
      assert Sample(seed, xs, k) == [xs[i]] + tail;
    }
  }

  /** What callers use of a sample: its members come from the list, it keeps the list
      free of repeats, and drawing at least the whole list gives back exactly its members. */
  lemma SampleMembers<T>(seed: int, xs: seq<T>, k: nat)
    ensures forall a :: a in Sample(seed, xs, k) ==> a in xs
    ensures Distinct(xs) ==> Distinct(Sample(seed, xs, k))
    ensures k >= |xs| ==> forall a :: a in Sample(seed, xs, k) <==> a in xs
  {
    var r := Sample(seed, xs, k);
    forall a | a in r ensures a in xs {
      MultisetMember(a, r, xs);
    }
    if Distinct(xs) {
      SampleDistinct(seed, xs, k);
    }
    if k >= |xs| {
      SampleAllIsPermutation(seed, xs, k);
      forall a | a in xs ensures a in r {
        MultisetMember(a, xs, r);
      }
    }
  }
}

=== FILE: store.dfy ===
/** One node's replica store: the `kv` table, one row per key holding the value, the
    write's timestamp and the request id of the write that produced it. Writes are
    last-writer-wins on the timestamp and idempotent on the request id. */
module Store {
  import opened Common

  type Key = string
  type Value = string
  type RequestId = string

  /** A row of the table. Timestamps are integers (the source stores float seconds). */
  datatype Record = Record(value: Value, ts: int, requestId: RequestId)

  type Store = map<Key, Record>

  /** The arguments of `internal_set_local`. */
  datatype Write = Write(key: Key, value: Value, ts: int, requestId: RequestId)

  function RecordOf(w: Write): Record
  {
    Record(w.value, w.ts, w.requestId)
  }

  /** The updated store and the boolean `internal_set_local` returns. */
  datatype PutResult = PutResult(store: Store, accepted: bool)

  /** `internal_set_local`: a replay of the stored request id is acknowledged without a
      change; a write older than the stored one is refused; anything else replaces the row. */
  function Put(s: Store, w: Write): (r: PutResult)
    // only the written key can change, and it is present afterwards
    ensures r.store.Keys == s.Keys + {w.key}
    ensures forall k :: k in s && k != w.key ==> r.store[k] == s[k]
    // the write is acknowledged exactly when the row now carries its request id
    ensures r.accepted <==> r.store[w.key].requestId == w.requestId
    // the row is either untouched or exactly the new write
    ensures r.store == s || r.store[w.key] == RecordOf(w)
    ensures !r.accepted ==> r.store == s
    // the stored timestamp never goes down
    ensures w.key in s ==> r.store[w.key].ts >= s[w.key].ts
  {
    if w.key in s && s[w.key].requestId == w.requestId then PutResult(s, true)
    else if w.key in s && w.ts < s[w.key].ts then PutResult(s, false)
    else PutResult(s[w.key := RecordOf(w)], true)
  }

  /** `internal_get_local`: the stored row, or None. */
  function Get(s: Store, key: Key): (r: Option<Record>)
    ensures r.Some? <==> key in s
    ensures r.Some? ==> r.value == s[key]
  {
    if key in s then Some(s[key]) else None
  }

  /** A write to an absent key stores exactly that write and is acknowledged. */
  lemma PutAbsentKey(s: Store, w: Write)
    requires w.key !in s
    ensures Put(s, w) == PutResult(s[w.key := RecordOf(w)], true)
  {
  }

  /** Replaying the stored request id is acknowledged and changes nothing. */
  lemma PutReplay(s: Store, w: Write)
    requires w.key in s && s[w.key].requestId == w.requestId
    ensures Put(s, w) == PutResult(s, true)
  {
  }

  /** Another request with a strictly older timestamp is refused and changes nothing. */
  lemma PutStale(s: Store, w: Write)
    requires w.key in s && s[w.key].requestId != w.requestId && w.ts < s[w.key].ts
    ensures Put(s, w) == PutResult(s, false)
  {
  }

  /** Another request with an equal or newer timestamp replaces the row. */
  lemma PutNewer(s: Store, w: Write)
    requires w.key in s && s[w.key].requestId != w.requestId && w.ts >= s[w.key].ts
    ensures Put(s, w) == PutResult(s[w.key := RecordOf(w)], true)
  {
  }

  /** Applying the same write twice is the same as applying it once. */
  lemma PutIdempotent(s: Store, w: Write)
    ensures Put(Put(s, w).store, w) == Put(s, w)
  {
  }

  /** Reading after a write: the key is present and holds the write's request id
      exactly when the write was acknowledged. */
  lemma GetAfterPut(s: Store, w: Write)
    ensures Get(Put(s, w).store, w.key).Some?
    ensures Put(s, w).accepted <==> Get(Put(s, w).store, w.key).value.requestId == w.requestId
  {
  }

  /** Applies writes in order. */
  function PutAll(s: Store, ws: seq<Write>): Store
    decreases |ws|
  {
    if |ws| == 0 then s else PutAll(Put(s, ws[0]).store, ws[1..])
  }

  /** Across any sequence of writes, no key disappears and no stored timestamp goes down. */
  lemma {:induction false} PutsNeverLowerTs(s: Store, ws: seq<Write>)
    ensures forall k :: k in s ==> k in PutAll(s, ws) && PutAll(s, ws)[k].ts >= s[k].ts
    decreases |ws|
  {
    if |ws| > 0 {
      PutsNeverLowerTs(Put(s, ws[0]).store, ws[1..]);
    }
  }

  /** What the SELECT of `internal_set_local` decides on its own, before the REPLACE: the
      write goes ahead unless the row already carries its request id or is newer. On one
      store at a time this is exactly whether Put replaces the row. */
  predicate PassesCheck(s: Store, w: Write)
  {
    !(w.key in s && (s[w.key].requestId == w.requestId || w.ts < s[w.key].ts))
  }

  lemma PassesCheckIsPut(s: Store, w: Write)
    ensures PassesCheck(s, w) ==> Put(s, w) == PutResult(s[w.key := RecordOf(w)], true)
    ensures !PassesCheck(s, w) ==> Put(s, w).store == s
  {
  }

  lemma PutAllTwo(s: Store, w1: Write, w2: Write)
    ensures PutAll(s, [w1, w2]) == Put(Put(s, w1).store, w2).store
  {
    var s1 := Put(s, w1).store;
    assert [w1, w2][1..] == [w2];
    assert PutAll(s, [w1, w2]) == PutAll(s1, [w2]);
    assert [w2][1..] == [];
    assert PutAll(s1, [w2]) == PutAll(Put(s1, w2).store, []);
  }

  /** Two `internal_set_local` calls on one node, as the threaded server can run them: the
      SELECT and the REPLACE are separate statements with no lock or transaction around
      them, so both SELECTs can read the snapshot `s` before either REPLACE lands. Each
      write then goes ahead on what it read, and the REPLACEs land in order. */
  function InterleavedPuts(s: Store, w1: Write, w2: Write): (r: Store)
    // writes to different keys do not interfere: the outcome is that of running them in turn
    ensures w1.key != w2.key ==> r == PutAll(s, [w1, w2])
    // the later REPLACE wins whatever the timestamp of the row it overwrites
    ensures PassesCheck(s, w2) ==> w2.key in r && r[w2.key] == RecordOf(w2)
  {
    PutAllTwo(s, w1, w2);
    PassesCheckIsPut(s, w1);
    PassesCheckIsPut(Put(s, w1).store, w2);
    var s1 := if PassesCheck(s, w1) then s[w1.key := RecordOf(w1)] else s;
    if PassesCheck(s, w2) then s1[w2.key := RecordOf(w2)] else s1
  }

  /** The interleaving loses last-writer-wins: two different requests for a key, the newer
      first, both pass their checks against the same row, and the older REPLACE lands last.
      The stored timestamp falls below that of a write that was already acknowledged,
      which running the two puts in turn never allows. */
  lemma InterleavedPutsLowerTs(s: Store, w1: Write, w2: Write)
    requires w1.key == w2.key && w1.requestId != w2.requestId && w2.ts < w1.ts
    requires PassesCheck(s, w1) && PassesCheck(s, w2)
    ensures Put(s, w1).accepted && Put(s, w1).store[w1.key].ts == w1.ts
    ensures InterleavedPuts(s, w1, w2)[w1.key].ts < Put(s, w1).store[w1.key].ts
    // in turn, the older write is refused and the newer one stays
    ensures PutAll(s, [w1, w2]) == Put(s, w1).store
  {
    PassesCheckIsPut(s, w1);
    PassesCheckIsPut(Put(s, w1).store, w2);
    PutAllTwo(s, w1, w2);
  }

  /** A concrete instance on an empty table: writes with ts 10 and ts 5 both read no row,
      and the key ends with ts 5. */
  lemma InterleavedPutsExample()
    ensures var w1 := Write("k", "new", 10, "r1");
            var w2 := Write("k", "old", 5, "r2");
            InterleavedPuts(map[], w1, w2) == map["k" := Record("old", 5, "r2")]
            && PutAll(map[], [w1, w2]) == map["k" := Record("new", 10, "r1")]
  {
    var w1 := Write("k", "new", 10, "r1");
    var w2 := Write("k", "old", 5, "r2");
    InterleavedPutsLowerTs(map[], w1, w2);
  }

  /** Retries of one request: once a node holds the request id for the key, every later
      write carrying that key and request id is acknowledged and leaves the store as it is,
      whatever its timestamp. */
  lemma {:induction false} ReplaysLeaveStoreUnchanged(s: Store, key: Key, rid: RequestId, ws: seq<Write>)
    requires key in s && s[key].requestId == rid
    requires forall i :: 0 <= i < |ws| ==> ws[i].key == key && ws[i].requestId == rid
    ensures PutAll(s, ws) == s
    ensures forall i :: 0 <= i < |ws| ==> Put(s, ws[i]) == PutResult(s, true)
    decreases |ws|
  {
    if |ws| > 0 {
      ReplaysLeaveStoreUnchanged(s, key, rid, ws[1..]);
    }
  }

  /** The first acknowledged attempt of a request settles the row: the attempts after it
      change nothing. */
  lemma AcceptedThenReplays(s: Store, w: Write, ws: seq<Write>)
    requires Put(s, w).accepted
    requires forall i :: 0 <= i < |ws| ==> ws[i].key == w.key && ws[i].requestId == w.requestId
    ensures PutAll(Put(s, w).store, ws) == Put(s, w).store
  {
    ReplaysLeaveStoreUnchanged(Put(s, w).store, w.key, w.requestId, ws);
  }
}
